=== FILE: README.md ===
# ReactNativeAuthApp: user registry, session gate and profile screens in Dafny

This project models the logic of a small mobile-app backend and its client.

The backend is the Express router mounted at `/api/auth`. It handles:

- registration (validation, bcrypt hash, INSERT with a unique email);
- login (lookup, password compare, a one-hour JWT bound to the user id);
- the bearer-token middleware `authMiddleware`;
- profile read by email;
- profile update;
- avatar upload (multer disk storage: per-user folder, fixed file name);
- avatar delete (unlink, then set the path to NULL).

On the client side it models:

- the registration screen's checks and its terms checkbox;
- the profile screen's upload metadata (file name and MIME type derived from a URI);
- the picker guard;
- how the screen's `user` object changes after a fetch, an upload or a delete.

The style is functional. The `users` table is an immutable value: rows keyed by id, a unique index on email, and the AUTO_INCREMENT counter (`Users.Store`). Every handler is a pure function from the table and the request to a reply and the new table. Whatever the environment decides is a parameter of the handler:

- a database error;
- the outcome of `fs.unlink` (success, ENOENT, other);
- bcrypt's random salt;
- the clock;
- the platform path separator;
- the request's protocol and host.

Cryptography is symbolic. bcryptjs hashes the UTF-8 bytes of a password followed by a zero byte, and its key schedule reads that byte string cyclically for exactly 72 bytes. `Bcrypt.Key` is that 72-byte effective key. `Bcrypt.Hash(pw, salt)` is a free constructor over the key, and `Bcrypt.Matches` (`bcrypt.compare`) compares keys. So two passwords that share their first 72 bytes are indistinguishable, as they are to the library (`Bcrypt.LongPasswordsCollide`). A JWT is the text `<id>.<exp>.<mac>` in canonical decimal. `Jwt.Mac` is a deterministic stand-in for the keyed HMAC. `Jwt.Verify` parses the text, recomputes the signature and checks `now >= exp` for expiry. This lets the model prove exactly which strings the gate admits (`Jwt.VerifySound`) without modelling any cryptography.

Files:

- `wrappers.dfy`: Option/Result.
- `strings.dfy`: JavaScript `split`, `join`, `pop`, `startsWith` and one-character `replace`.
- `decimal.dfy`: canonical decimal codec.
- `crypto.dfy`: modules `Bcrypt` and `Jwt`.
- `users.dfy`: the table.
- `routes.dfy`: the gate and the handlers.
- `flows.dfy`: properties across requests.
- `register_screen.dfy`: the registration screen.
- `profile_screen.dfy`: the profile screen.
- `client_server.dfy`: server replies as the screens see them.

Three behaviours of the code worth knowing:

- The gate never checks the word `Bearer`. It takes the second space-separated piece of the header, whatever the first piece is (`AuthRoutes.BearerToken`).
- A missing token and a refused token both give 401, but with different messages ("Unauthorized" and "Invalid token"). They are not identical.
- An update by an admitted subject that has no row still answers 200 "Profile updated successfully". The table is unchanged.

## Model

| member | source | states |
|---|---|---|
| Bcrypt.Utf8 | backend/routes/auth.js:34 | a password's bytes: one to four UTF-8 bytes per character, in order, so never fewer bytes than characters; only the empty password has no bytes |
| Bcrypt.Utf8Append | backend/routes/auth.js:34 | encoding a concatenation concatenates the encodings |
| Bcrypt.Cycle | backend/routes/auth.js:34 | reading a byte string cyclically: the result has the asked length, starts with the string (or its prefix), and repeats with the string's length as period |
| Bcrypt.Key | backend/routes/auth.js:34 | the key the library uses is always 72 bytes: the first 72 bytes of a long password; for a shorter one, its bytes and then a zero byte, and from there on the key repeats with that period (so `a` and `a`, NUL, `a` share a key) |
| Bcrypt.Hash | backend/routes/auth.js:34 | the stored digest uses 10 rounds and the given salt, and a candidate password matches it exactly when its effective key is the hashed password's |
| Bcrypt.LongPasswordsCollide | backend/routes/auth.js:58 | two passwords that agree on their first 72 characters match each other's digest, whatever follows |
| Bcrypt.ShortPasswordsCollide | backend/routes/auth.js:58 | because a short password's bytes repeat in its key, `a` and `a`, NUL, `a` match each other's digest |
| Jwt.Sign | backend/routes/auth.js:63 | the token is made only of digits and dots, has no space and is at least five characters long, so it survives the gate's `split(' ')` whole |
| Jwt.Verify | backend/routes/auth.js:18 | a token that does not split into exactly three dot-separated parts is malformed; an accepted token has not expired and carries the id its first part spells |
| Jwt.VerifySigned | backend/routes/auth.js:63 | a token signed at login verifies, giving back its claims, at every instant before `exp`, and is expired from `exp` on |
| Jwt.VerifySound | backend/routes/auth.js:17-19 | any string the verifier accepts is exactly the token the secret gives its claims, and it has not expired |
| AuthRoutes.BearerToken | backend/routes/auth.js:14-15 | the token is the second space-separated piece of the header, kept only if non-empty; no header gives no token; the first piece (scheme) is arbitrary |
| AuthRoutes.BearerTokenOf | backend/routes/auth.js:14 | conversely, `scheme token` or `scheme token rest…` yields `token` for any space-free scheme |
| AuthRoutes.AuthGate | backend/routes/auth.js:13-24 | no token gives 401 "Unauthorized" whatever the secret and clock; a token the verifier refuses gives 401 "Invalid token"; admission happens only for a token signed with the secret and not expired, and the request is then admitted for that token's subject |
| AuthRoutes.SignedAdmits | backend/routes/auth.js:13-24 | `Bearer <token>`, with the token signed for some claims, admits the request as the claims' subject strictly before their expiry and is refused with "Invalid token" from then on |
| Users.ByEmail | backend/routes/auth.js:52 | the lookup by email finds a row exactly when some row has that email, and then it is that row |
| Users.ById | backend/routes/auth.js:121 | the lookup by id finds a row exactly when the id is in the table, and then it is that row |
| Users.Insert | backend/routes/auth.js:36-40 | the unique email index refuses a known email; otherwise exactly one row is added, under the next id, with no image, and the table stays consistent |
| Users.UpdateById | backend/routes/auth.js:97-98 | an UPDATE by id changes at most the row with that id, never its id, email or password, and matching no row changes nothing |
| AuthRoutes.Register | backend/routes/auth.js:27-46 | a missing or empty field gives 400 and no change; a database failure gives 500; a known email gives 409 and the existing rows are untouched; otherwise 201 with only a message and exactly one new row storing the hash, not the password |
| AuthRoutes.Login | backend/routes/auth.js:49-66 | database error, unknown email and wrong password all give the identical 401 reply; success exactly when the email exists and the password matches, with a token whose claims are the user's id and now plus 3600 s |
| AuthRoutes.NormaliseImage | backend/routes/auth.js:81-85 | a NULL or empty image reads as null; a value starting with "http" is returned as is; any other path is prefixed with protocol, "://" and host |
| AuthRoutes.NormaliseIdempotent | backend/routes/auth.js:81-85 | normalising an already normalised image changes nothing when the protocol is http(s) |
| AuthRoutes.NormaliseStoredPath | backend/routes/auth.js:82-84 | a stored upload path (leading slash) always reads back as origin plus path |
| AuthRoutes.GetProfile | backend/routes/auth.js:69-90 | 404 "User not found" exactly when the email is unknown or the query fails; otherwise the id, name, email, dob, gender and normalised image of that row, and no password field |
| AuthRoutes.UpdateProfile | backend/routes/auth.js:93-105 | the gate's rejection passes through unchanged; an admitted request whose query fails is answered 500 "Database error" and changes nothing; 200 exactly when admitted and the query succeeds; only the row whose id is the token's subject can change, and in it exactly name, dob, gender and profile image; ids, emails, passwords and the email index never change |
| AuthRoutes.Extname | backend/routes/auth.js:130 | the extension is empty or a dot-led proper suffix of the original name with no further dot; a name without a dot, and `..`, have none |
| AuthRoutes.ExtnameOf | backend/routes/auth.js:130 | `stem.e`, with `e` dot-free and a non-trivial stem, has extension `.e` |
| AuthRoutes.PublicPath | backend/routes/auth.js:140 | the stored path is a `/` followed by the disk path character for character, except that every backslash becomes `/`; so it has no backslash |
| AuthRoutes.PublicPathOfUpload | backend/routes/auth.js:124-140 | on either separator the stored path is `/uploads/<name>/profile<ext>` with every backslash in the name or extension turned into `/` (a display name `a\b` is stored as `/uploads/a/b/profile<ext>`); for a name and file name without backslashes it is folder and file name verbatim |
| AuthRoutes.UploadImage | backend/routes/auth.js:136-147 | gate rejection and a missing file (400) change nothing; for an admitted request with a file, a failed lookup or a missing row is Express's 500 page "User not found" and a failed update is 500 "Database error", both changing nothing; success exactly when admitted, a file was sent, the subject's row exists and neither query fails; on success only that row's image changes, to the stored path, and the reply's URL is origin plus that path |
| AuthRoutes.UploadAs | backend/routes/auth.js:136-147 | for an admitted subject: 400 without a file; with a file, 500 "User not found" (Express's page) when the lookup fails or the row is missing and 500 "Database error" when the update fails, neither changing the table; 200 exactly when a file was sent, the row exists and neither query fails, setting only that row's image to the stored path |
| AuthRoutes.DeleteImage | backend/routes/auth.js:150-181 | no row gives 404 and no image gives 400, both without touching the filesystem; an unlink error other than ENOENT gives 500 and keeps the path; otherwise (ENOENT included) the image becomes NULL and nothing else changes |
| AuthFlows.RegisterThenLogin | backend/routes/auth.js:52-64 | after a successful registration the same email logs in, getting a token for the new id, with the registered password or any password with the same effective key (such as one sharing its first 72 bytes) |
| AuthFlows.RegisterThenWrongPassword | backend/routes/auth.js:58-61 | after a registration a password whose effective key differs from the registered one's gets the same 401 as an unknown email |
| AuthFlows.RegisterTwice | backend/routes/auth.js:37-41 | registering the same email again gives 409 and the first row keeps its hash and name |
| AuthFlows.LoginTokenLifetime | backend/routes/auth.js:63 | the login token sent as `Bearer <token>` admits the user's id at every instant before one hour after issue and is refused with "Invalid token" from then on |
| AuthFlows.UploadThenProfile | backend/routes/auth.js:140-145 | a user holding a live token who uploads a file gets 200, and reading the profile afterwards shows exactly the URL the upload answered with |
| AuthFlows.DeleteThenProfile | backend/routes/auth.js:159-177 | a user holding a live token and a stored image gets 200 from a delete unless the unlink fails with an error other than ENOENT; afterwards the profile shows no image, and a second delete answers 400 without touching the filesystem |
| AuthFlows.SameNameSharesPath | backend/routes/auth.js:124 | two different users with the same display name uploading files with the same extension get the same reply and hence the same stored path |
| AuthFlows.Handle | backend/routes/auth.js:27-181 | every request keeps the table consistent, never removes a row, and never changes an id, email or password; login and profile reads change nothing |
| AuthFlows.RunKeeps | backend/routes/auth.js:27-181 | the same holds for any sequence of requests |
| RegisterScreen.HandleRegister | frontend/screens/registerscreen.js:24-45 | a request is sent exactly when all six fields are filled, the passwords agree and the terms are accepted; it carries exactly name, email, dob, gender and password; otherwise the first failing check's alert |
| RegisterScreen.FirstFailureWins | frontend/screens/registerscreen.js:25-38 | with a field missing no passwords or terms choice changes the outcome; with mismatching passwords the terms box does not either |
| RegisterScreen.RequestIgnoresConfirmation | frontend/screens/registerscreen.js:44 | forms differing only in the confirmation send the same request |
| RegisterScreen.Feedback | frontend/screens/registerscreen.js:49-57 | success alert on an ok answer, the server's message or "Registration failed" otherwise, "Could not register" when the request threw |
| RegisterScreen.OnEvent | frontend/screens/registerscreen.js:110-113 | opening the terms sets the viewed flag; a press flips `agreed` exactly when the terms were viewed |
| RegisterScreen.ReplayFromStart | frontend/screens/registerscreen.js:69-72 | from the start the terms are viewed exactly when opened, and the box is ticked exactly when an odd number of presses followed the first opening |
| RegisterScreen.AgreedOnlyAfterViewing | frontend/screens/registerscreen.js:110-113 | the box can be ticked only after the terms were opened |
| ProfileScreen.FileName | frontend/navigator/profile.js:48 | the file name has no slash, ends the URI, and is preceded by a slash unless it is the whole URI |
| ProfileScreen.FileNameOf | frontend/navigator/profile.js:48 | conversely, whatever follows the last slash is the file name |
| ProfileScreen.ExtensionMatch | frontend/navigator/profile.js:49 | the regex matches exactly when the name ends in a dot and one or more word characters, and captures those characters |
| ProfileScreen.MimeType | frontend/navigator/profile.js:49-50 | `image/<ext>` when the name ends in a dot and word characters, otherwise exactly `image` |
| ProfileScreen.MimeTypeOf | frontend/navigator/profile.js:49-50 | any `stem.ext` with a word-character extension gets `image/ext` |
| ProfileScreen.UploadPart | frontend/navigator/profile.js:48-57 | the appended part keeps the URI; its name is the URI's last `/`-segment and its type is the MIME type derived from that name, so `image` or `image/…` |
| ProfileScreen.PickedUri | frontend/navigator/profile.js:113-115 | an upload happens exactly when the picker was not cancelled and returned an asset, and uses the first asset's URI |
| ProfileScreen.AfterFetch | frontend/navigator/profile.js:31-34 | a body with a truthy message is an error and keeps the user; any other body becomes the user; an exception keeps the user |
| ProfileScreen.AfterUpload | frontend/navigator/profile.js:68-76 | only `profile_image` can change, and only on an ok answer with a truthy `imageUrl`, to that value; otherwise the user is kept |
| ProfileScreen.AfterDelete | frontend/navigator/profile.js:93-101 | only `profile_image` can change, and only on an ok answer, to null; otherwise the user is kept |
| ClientServer.FetchAdoptsProfile | frontend/navigator/profile.js:28-32 | a served profile replaces the screen's user exactly; a 404 keeps it and shows "User not found" |
| ClientServer.UploadReachesScreen | frontend/navigator/profile.js:68-70 | an upload by a user holding a live token succeeds, and the screen's user then has the returned URL as image and nothing else changed |
| ClientServer.UploadAnswerReachesScreen | frontend/navigator/profile.js:68-70 | any 200 upload reply with a non-empty URL sets exactly `profile_image` on the screen's user to that URL |
| ClientServer.FailedUploadKeepsScreen | frontend/navigator/profile.js:69-73 | a reply that is not 2xx leaves the screen's user unchanged |
| ClientServer.DeleteReachesScreen | frontend/navigator/profile.js:93-95 | a delete by a user holding a live token and a stored image succeeds unless the unlink fails for a reason other than ENOENT, and the screen's user then has a null image and nothing else changed |
| ClientServer.FailedDeleteKeepsScreen | frontend/navigator/profile.js:94-98 | every refused delete leaves the screen's user unchanged |
| ClientServer.ScreenRequestPassesValidation | frontend/screens/registerscreen.js:40-55 | what the screen sends always passes the router's field check; the answer is 201, 409 or 500, and the screen shows the router's message for the last two |

## Left out

- bcrypt and JWT cryptography: hashing, HMAC, base64url and the header segment are replaced by a free constructor and a decimal layout with a stand-in signature. Expiry is compared on an integer clock (`now >= exp` is expired), not at the library's one-second granularity.
- The second token check inside multer's `destination` callback (backend/routes/auth.js:110-118): it repeats the gate's check on the same header.
- Filesystem effects: `existsSync`/`mkdirSync` are not modelled. `unlink` is an input with three outcomes. The delete handler reports the stored path (`/uploads/…`), not the filesystem path `path.join(__dirname, '..', imagePath)` it is resolved to.
- `path.join` normalisation (`.`/`..` segments, repeated separators): `req.file.path` is the folder, the platform separator and the file name concatenated.
- AuthRoutes.Extname: applies to a base name only, since the multipart parser strips directories from the original file name.
- Error detail that some 500 replies echo (`error: err`): replies carry only the message.
- Express's default error page for a failed multer `destination`: modelled as status 500 with a non-JSON body, not its HTML.
- The MySQL schema and collation are not part of the source. Emails are compared exactly. Absent update fields, which the driver sends as NULL, are not modelled: the update body's name, dob and gender are strings.
- AUTO_INCREMENT values consumed by failed INSERTs: the counter advances only on success. Ids stay unique either way.
- Jwt.Sign: the secret (`JWT_SECRET`) is assumed non-empty. When it is empty or unset, `jwt.sign` throws inside the login's query callback, so a correct login gets no reply, and `jwt.verify` fails, so every token gets 401 "Invalid token". The model signs and verifies with any secret, the empty one included.
- AuthRoutes.Register: body fields are modelled as strings that may be absent, not as arbitrary JSON values. A falsy non-string such as `0` or `false` gets 400 in the code and cannot be written here. A truthy non-string password such as `123` passes the check, then `bcrypt.hash` rejects inside the async handler and no reply is sent; the model has no such case.
- AuthRoutes.Login: email and password are strings. A missing or non-string password makes `bcrypt.compare` throw inside the query callback, and no reply is sent; the model has no such case.
- Bcrypt.Utf8: characters are Unicode scalar values, so the lone UTF-16 surrogates a JavaScript string may hold (which the library encodes specially) are not modelled.
- Express wiring, CORS, static serving and port configuration (backend/server.js), React rendering, navigation, the terms screen, and AsyncStorage reads and writes: these are I/O and UI.
- The missing-email-in-storage guard of `fetchProfile`, the loading and editing flags, and `updateProfile` on the client: these are UI state and a plain request with no logic.
- Date pickers (`toISOString().split('T')[0]`): they depend on the JavaScript Date and time zones.
- `fetch` and network errors: a failed request is the `Threw`/`NoAnswer` answer.
- React's batched state updates: each checkbox press reads the state left by the previous event.

=== FILE: client_server.dfy ===
/**
 * The mobile screens talking to the router: a reply is serialised to JSON
 * (Express's HTML error page does not parse, so the screen's `res.json()`
 * throws), and the screens' state updates are applied to it.
 */
module ClientServer {
  import opened Wrappers
  import opened Users
  import opened AuthRoutes
  import opened ProfileScreen
  import RegisterScreen

  /** The profile object `res.json(user)` sends. */
  function ViewJson(v: View): Obj
  {
    map[
      "id" := JNum(v.id),
      "name" := JStr(v.name),
      "email" := JStr(v.email),
      "dob" := JStr(v.dob),
      "gender" := JStr(v.gender),
      "profile_image" := match v.profileImage { case Some(p) => JStr(p) case None => JNull }]
  }

  /** What `res.json()` yields on the client for a reply body. */
  function ToJson(b: Body): Option<Obj>
  {
    match b
    case Message(t) => Some(map["message" := JStr(t)])
    case LoginBody(t, token) => Some(map["message" := JStr(t), "token" := JStr(token)])
    case ProfileBody(v) => Some(ViewJson(v))
    case UploadBody(t, url) => Some(map["message" := JStr(t), "imageUrl" := JStr(url)])
    case ErrorPage(_) => None
  }

  /** The profile screen's view of a reply: `res.ok` and the parsed body, or an exception. */
  function Receive(r: Reply): Answer
  {
    match ToJson(r.body)
    case None => Threw
    case Some(o) => Answer(200 <= r.status < 300, o)
  }

  /** Reading a profile replaces the screen's user with exactly the served profile; a miss keeps the old one. */
  lemma FetchAdoptsProfile(s: Store, email: string, o: Origin, dbFails: bool, user: Obj)
    requires Valid(s)
    ensures var r := GetProfile(s, email, o, dbFails);
            AfterFetch(user, Receive(r))
            == if r.status == 200 then Outcome(ViewJson(r.body.view), None)
               else Outcome(user, Some(Alert("Error", Some(JStr("User not found")))))
  {
    var r := GetProfile(s, email, o, dbFails);
    if r.status == 200 {
      assert "message" !in ViewJson(r.body.view);
    }
  }

  /** A successful upload leaves the screen's user with the returned URL as its image, and nothing else changed. */
  lemma UploadReachesScreen(s: Store, c: Jwt.Claims, secret: string, now: nat, file: UploadedFile,
                            sep: char, o: Origin, user: Obj)
    requires Valid(s)
    requires c.id in s.rows && now < c.exp
    ensures var r := UploadImage(s, Some("Bearer " + Jwt.Sign(c, secret)), secret, now, Some(file), sep, o, false, false);
            && r.reply.status == 200
            && AfterUpload(user, Receive(r.reply)).user == user["profile_image" := JStr(r.reply.body.imageUrl)]
  {
    SignedAdmits(c, secret, now);
    var r := UploadImage(s, Some("Bearer " + Jwt.Sign(c, secret)), secret, now, Some(file), sep, o, false, false);
    var url := UrlPrefix(o) + PublicPath(DiskPath(s.rows[c.id].name, file.originalName, sep));
    assert r.reply == Reply(200, UploadBody("Image uploaded", url));
    UploadAnswerReachesScreen(r.reply, user);
  }

  /** A 200 upload reply with a non-empty URL puts that URL on the screen's user. */
  lemma UploadAnswerReachesScreen(r: Reply, user: Obj)
    requires r.status == 200 && r.body.UploadBody? && r.body.imageUrl != ""
    ensures AfterUpload(user, Receive(r)).user == user["profile_image" := JStr(r.body.imageUrl)]
  {
    assert Receive(r) == Answer(true, map["message" := JStr(r.body.text), "imageUrl" := JStr(r.body.imageUrl)]);
  }

  /** A refused upload (any status but 2xx) leaves the screen's user as it was. */
  lemma FailedUploadKeepsScreen(r: Reply, user: Obj)
    requires !(200 <= r.status < 300)
    ensures AfterUpload(user, Receive(r)).user == user
  {
  }

  /** A successful delete leaves the screen's user with a null image, and nothing else changed. */
  lemma DeleteReachesScreen(s: Store, c: Jwt.Claims, secret: string, now: nat, unlink: Unlink, user: Obj)
    requires Valid(s)
    requires c.id in s.rows && now < c.exp
    requires s.rows[c.id].profileImage.Some? && s.rows[c.id].profileImage.value != ""
    requires unlink != UnlinkFailed
    ensures var r := DeleteImage(s, Some("Bearer " + Jwt.Sign(c, secret)), secret, now, false, unlink, false);
            && r.reply.status == 200
            && AfterDelete(user, Receive(r.reply)).user == user["profile_image" := JNull]
  {
    SignedAdmits(c, secret, now);
  }

  /** Every refused delete (404, 400, 500, or the gate's 401) leaves the screen's user as it was. */
  lemma FailedDeleteKeepsScreen(s: Store, header: Option<string>, secret: string, now: nat, lookupFails: bool,
                                unlink: Unlink, writeFails: bool, user: Obj)
    requires Valid(s)
    requires DeleteImage(s, header, secret, now, lookupFails, unlink, writeFails).reply.status != 200
    ensures var r := DeleteImage(s, header, secret, now, lookupFails, unlink, writeFails);
            AfterDelete(user, Receive(r.reply)).user == user
  {
  }

  /** The body the registration screen sends, as the router reads it. */
  function ServerBody(q: RegisterScreen.RegisterRequest): RegisterBody
  {
    RegisterBody(Some(q.name), Some(q.email), Some(q.dob), Some(q.gender), Some(q.password))
  }

  /** The registration screen's reading of a reply. */
  function RegisterAnswer(r: Reply): RegisterScreen.Answer
  {
    match r.body
    case Message(t) => RegisterScreen.Answer(200 <= r.status < 300, Some(t))
    case ErrorPage(_) => RegisterScreen.NoAnswer
    case _ => RegisterScreen.Answer(200 <= r.status < 300, None)
  }

  /**
   * Whatever the registration screen sends passes the router's field check,
   * so the answer is a registration, a duplicate email, or a database error,
   * and the screen shows the router's message for the latter two.
   */
  lemma ScreenRequestPassesValidation(f: RegisterScreen.Form, s: Store, salt: nat, dbFails: bool)
    requires Valid(s)
    requires RegisterScreen.HandleRegister(f).Send?
    ensures var r := Register(s, ServerBody(RegisterScreen.HandleRegister(f).request), salt, dbFails);
            && r.reply in {Registered, EmailTaken, DatabaseError}
            && RegisterScreen.Feedback(RegisterAnswer(r.reply))
               == if r.reply == Registered then RegisterScreen.Alert("Success", "Registered successfully")
                  else RegisterScreen.Alert("Error", r.reply.body.text)
  {
    var b := ServerBody(RegisterScreen.HandleRegister(f).request);
    assert Complete(b);
  }
}

=== FILE: crypto.dfy ===
/**
 * Password hashing (bcryptjs) as a symbolic one-way function over the
 * library's effective key. bcryptjs hashes the UTF-8 bytes of the password
 * followed by a zero byte, and the Blowfish key schedule reads that byte
 * string cyclically for 72 bytes and never further. A digest is a free
 * constructor over that key, so two passwords match the same digest exactly
 * when their effective keys agree. No cryptography is modelled.
 */
module Bcrypt {

  /** The cost factor passed to `bcrypt.hash`. */
  const Rounds: nat := 10

  /** The number of key bytes the Blowfish key schedule reads. */
  const KeyBytes: nat := 72

  newtype byte = b: int | 0 <= b < 256

  /** The UTF-8 encoding of one Unicode scalar value. */
  function Utf8Char(c: char): (bs: seq<byte>)
    ensures 1 <= |bs| <= 4
    ensures |bs| == 1 <==> c as int < 0x80
    ensures |bs| == 1 ==> bs[0] as int == c as int
  {
    var n := c as int;
    if n < 0x80 then [n as byte]
    else if n < 0x800 then [(0xC0 + n / 0x40) as byte, (0x80 + n % 0x40) as byte]
    else if n < 0x1_0000 then
      [(0xE0 + n / 0x1000) as byte, (0x80 + n / 0x40 % 0x40) as byte, (0x80 + n % 0x40) as byte]
    else
      [(0xF0 + n / 0x4_0000) as byte, (0x80 + n / 0x1000 % 0x40) as byte,
       (0x80 + n / 0x40 % 0x40) as byte, (0x80 + n % 0x40) as byte]
  }

  /** The UTF-8 encoding of a string: the encodings of its characters, in order. */
  function Utf8(s: string): (bs: seq<byte>)
    ensures |bs| >= |s|
    ensures s == [] <==> bs == []
  {
    if s == [] then [] else Utf8Char(s[0]) + Utf8(s[1..])
  }

  /** Encoding a concatenation concatenates the encodings. */
  lemma {:induction false} Utf8Append(a: string, b: string)
    ensures Utf8(a + b) == Utf8(a) + Utf8(b)
  {
    if a != [] {
      assert (a + b)[0] == a[0];
      assert (a + b)[1..] == a[1..] + b;
      Utf8Append(a[1..], b);
    } else {
      assert a + b == b;
    }
  }

  /** The first `n` bytes of `stream` read cyclically. */
  function Cycle(stream: seq<byte>, n: nat): (k: seq<byte>)
    requires stream != []
    ensures |k| == n
    ensures n <= |stream| ==> k == stream[..n]
    ensures n >= |stream| ==> k[..|stream|] == stream
    ensures forall i :: 0 <= i && i + |stream| < n ==> k[i + |stream|] == k[i]
    decreases n
  {
    if n <= |stream| then stream[..n]
    else
      var rest := Cycle(stream, n - |stream|);
      var k := stream + rest;
      assert forall i :: 0 <= i && i + |stream| < n ==> k[i + |stream|] == k[i] by {
        forall i | 0 <= i && i + |stream| < n
          ensures k[i + |stream|] == k[i]
        {
          if i < |stream| {
            if n - |stream| <= |stream| {
              assert rest[i] == stream[i];
            } else {
              assert rest[..|stream|][i] == stream[i];
            }
          } else {
            assert k[i] == rest[i - |stream|];
          }
        }
      }
      k
  }

  /** The 72 bytes the key schedule reads: the password's bytes and a zero byte, repeated. */
  function Key(password: string): (k: seq<byte>)
    ensures |k| == KeyBytes
    ensures |Utf8(password)| >= KeyBytes ==> k == Utf8(password)[..KeyBytes]
    ensures |Utf8(password)| < KeyBytes ==> k[..|Utf8(password)| + 1] == Utf8(password) + [0]
    ensures forall i :: 0 <= i && i + |Utf8(password)| + 1 < KeyBytes ==> k[i + |Utf8(password)| + 1] == k[i]
  {
    var stream := Utf8(password) + [0];
    assert |Utf8(password)| >= KeyBytes ==> stream[..KeyBytes] == Utf8(password)[..KeyBytes];
    Cycle(stream, KeyBytes)
  }

  /** A salted digest of an effective key; `key` is symbolic and no read path of the store exposes it. */
  datatype Digest = Digest(rounds: nat, salt: nat, key: seq<byte>)

  /** `bcrypt.hash(password, 10)` with the salt the library draws at random. */
  function Hash(password: string, salt: nat): (h: Digest)
    ensures h.rounds == Rounds && h.salt == salt
    ensures forall pw {:trigger Matches(pw, h)} :: Matches(pw, h) <==> Key(pw) == Key(password)
  {
    Digest(Rounds, salt, Key(password))
  }

  /** `bcrypt.compare(password, h)`: the candidate's effective key is the hashed one. */
  predicate Matches(password: string, h: Digest)
  {
    Key(password) == h.key
  }

  /**
   * Only the first 72 bytes count: two passwords that agree on their first 72
   * characters (so on at least 72 bytes) match each other's digests, however
   * they continue.
   */
  lemma LongPasswordsCollide(p: string, x: string, y: string, salt: nat)
    requires |p| >= KeyBytes
    ensures Matches(p + y, Hash(p + x, salt))
  {
    Utf8Append(p, x);
    Utf8Append(p, y);
    assert Utf8(p + x)[..KeyBytes] == Utf8(p)[..KeyBytes];
    assert Utf8(p + y)[..KeyBytes] == Utf8(p)[..KeyBytes];
  }

  /**
   * The key repeats a short password's bytes, so short passwords can collide:
   * `a` and `a`, NUL, `a` both give the key `a`, NUL, `a`, NUL, ...
   */
  lemma ShortPasswordsCollide()
    ensures Key("a") == Key("a\0a")
  {
    var k1 := Key("a");
    var k2 := Key("a\0a");
    assert Utf8("a") == [97];
    assert Utf8("a\0a") == [97, 0, 97];
    forall i | 0 <= i < KeyBytes
      ensures k1[i] == k2[i] == if i % 2 == 0 then 97 else 0
    {
      AlternatingKeys(i);
    }
  }

  /** The induction behind `ShortPasswordsCollide`. */
  lemma {:induction false} AlternatingKeys(i: nat)
    requires i < KeyBytes
    ensures Key("a")[i] == Key("a\0a")[i] == if i % 2 == 0 then 97 else 0
    decreases i
  {
    KeyOfA();
    KeyOfANulA();
    var k1, k2 := Key("a"), Key("a\0a");
    if i >= 4 {
      AlternatingKeys(i - 4);
      assert k1[i] == k1[i - 2] == k1[i - 4];
      assert k2[i] == k2[i - 4];
    } else {
      assert k2[i] == [97, 0, 97, 0][i] by { assert k2[..4][i] == k2[i]; }
      if i >= 2 {
        assert k1[i] == k1[i - 2];
      }
    }
  }

  /** `a` has the key `a`, NUL repeated with period two. */
  lemma KeyOfA()
    ensures Key("a")[0] == 97 && Key("a")[1] == 0
    ensures forall i :: 0 <= i && i + 2 < KeyBytes ==> Key("a")[i + 2] == Key("a")[i]
  {
    assert Utf8("a") == [97];
    assert Key("a")[..2] == [97, 0];
  }

  /** `a`, NUL, `a` has the key `a`, NUL, `a`, NUL repeated with period four. */
  lemma KeyOfANulA()
    ensures Key("a\0a")[..4] == [97, 0, 97, 0]
    ensures forall i :: 0 <= i && i + 4 < KeyBytes ==> Key("a\0a")[i + 4] == Key("a\0a")[i]
  {
    assert Utf8("a\0a") == [97, 0, 97];
  }
}

/**
 * Session tokens (jsonwebtoken). A token carries the subject id and an
 * expiry instant, in the compact form `<id>.<exp>.<signature>`, each part in
 * canonical decimal. The signature is `Mac`, a deterministic stand-in for the
 * keyed HMAC; verification recomputes it, so the model says exactly which
 * strings the verifier accepts without modelling the cryptography.
 */
module Jwt {
  import opened Wrappers
  import opened Strings
  import opened Decimal

  /** `expiresIn: '1h'`, in seconds. */
  const Lifetime: nat := 3600

  /** The signed payload `{ id }` together with the `exp` claim the library adds. */
  datatype Claims = Claims(id: nat, exp: nat)

  /** The reasons `jwt.verify` throws. */
  datatype VerifyError = Malformed | BadSignature | Expired

  /** A polynomial digest of the server secret (`JWT_SECRET`). */
  function Fingerprint(secret: string): nat
  {
    if |secret| == 0 then 0
    else Fingerprint(secret[..|secret| - 1]) * 257 + secret[|secret| - 1] as int
  }

  /** Stand-in for the keyed signature over the claims. */
  function Mac(secret: string, c: Claims): nat
  {
    (Fingerprint(secret) * 1_000_003 + c.id) * 1_000_033 + c.exp
  }

  /** The claims `jwt.sign({ id }, secret, { expiresIn: '1h' })` produces at clock `now`. */
  function Issue(id: nat, now: nat): Claims
  {
    Claims(id, now + Lifetime)
  }

  /** The compact token text for `c` under `secret`. */
  function Sign(c: Claims, secret: string): (token: string)
    ensures forall i :: 0 <= i < |token| ==> token[i] == '.' || IsDigit(token[i])
    ensures |token| >= 5 && ' ' !in token
  {
    var t := Show(c.id) + "." + Show(c.exp) + "." + Show(Mac(secret, c));
    assert forall i :: 0 <= i < |t| ==> t[i] == '.' || IsDigit(t[i]);
    assert forall i :: 0 <= i < |t| ==> t[i] != ' ';
    t
  }

  /**
   * `jwt.verify(token, secret)` at clock `now`: the token must have three
   * canonical parts, its signature must be the one `secret` gives its
   * claims, and it must not have expired (`now >= exp` is expired).
   */
  function Verify(token: string, secret: string, now: nat): (r: Result<Claims, VerifyError>)
    ensures |Split(token, '.')| != 3 ==> r == Err(Malformed)
    ensures r.Ok? ==> now < r.value.exp && Parse(Split(token, '.')[0]) == Some(r.value.id)
  {
    var parts := Split(token, '.');
    if |parts| != 3 then Err(Malformed)
    else
      match (Parse(parts[0]), Parse(parts[1]), Parse(parts[2]))
      case (Some(id), Some(exp), Some(tag)) =>
        if tag != Mac(secret, Claims(id, exp)) then Err(BadSignature)
        else if now >= exp then Err(Expired)
        else Ok(Claims(id, exp))
      case _ => Err(Malformed)
  }

  /** The three parts of a signed token are its id, expiry and signature. */
  lemma SignedParts(c: Claims, secret: string)
    ensures Split(Sign(c, secret), '.') == [Show(c.id), Show(c.exp), Show(Mac(secret, c))]
  {
    var ps := [Show(c.id), Show(c.exp), Show(Mac(secret, c))];
    forall i | 0 <= i < 3
      ensures '.' !in ps[i]
    {
      assert AllDigits(ps[i]);
    }
    Join3(ps[0], ps[1], ps[2], '.');
    SplitJoin(ps, '.');
  }

  /** A token signed with the server secret verifies until its expiry and is expired from then on. */
  lemma VerifySigned(c: Claims, secret: string, now: nat)
    ensures Verify(Sign(c, secret), secret, now) == if now < c.exp then Ok(c) else Err(Expired)
  {
    SignedParts(c, secret);
    ParseShow(c.id);
    ParseShow(c.exp);
    ParseShow(Mac(secret, c));
  }

  /** Whatever the verifier accepts is, character for character, a token signed with the secret, and unexpired. */
  lemma VerifySound(token: string, secret: string, now: nat, c: Claims)
    requires Verify(token, secret, now) == Ok(c)
    ensures token == Sign(c, secret)
    ensures now < c.exp
  {
    var parts := Split(token, '.');
    assert |parts| == 3;
    ShowParse(parts[0]);
    ShowParse(parts[1]);
    ShowParse(parts[2]);
    assert parts == [Show(c.id), Show(c.exp), Show(Mac(secret, c))];
    Join3(parts[0], parts[1], parts[2], '.');
  }
}

=== FILE: decimal.dfy ===
/**
 * Canonical decimal notation for natural numbers: digits only, no sign,
 * no leading zero except for "0" itself. Used to lay out the claims of a
 * session token as text.
 */
module Decimal {
  import opened Wrappers

  predicate IsDigit(ch: char)
  {
    '0' <= ch <= '9'
  }

  predicate AllDigits(s: string)
  {
    forall i :: 0 <= i < |s| ==> IsDigit(s[i])
  }

  /** Non-empty, digits only, and no superfluous leading zero. */
  predicate Canonical(s: string)
  {
    |s| >= 1 && AllDigits(s) && (s[0] == '0' ==> |s| == 1)
  }

  function DigitChar(d: nat): (ch: char)
    requires d < 10
    ensures IsDigit(ch) && ch as int - '0' as int == d
  {
    ('0' as int + d) as char
  }

  /** Decimal text of `n`. */
  function Show(n: nat): (s: string)
    ensures Canonical(s)
    ensures n > 0 ==> s[0] != '0'
  {
    if n < 10 then [DigitChar(n)]
    else Show(n / 10) + [DigitChar(n % 10)]
  }

  /** Numeric value of a string of digits. */
  function Value(s: string): nat
    requires AllDigits(s)
  {
    if |s| == 0 then 0
    else Value(s[..|s| - 1]) * 10 + (s[|s| - 1] as int - '0' as int)
  }

  /** Reading text back as a number; only canonical text is accepted. */
  function Parse(s: string): (r: Option<nat>)
    ensures r.Some? <==> Canonical(s)
  {
    if Canonical(s) then Some(Value(s)) else None
  }

  /** Reading what was shown gives the number back. */
  lemma {:induction false} ParseShow(n: nat)
    ensures Parse(Show(n)) == Some(n)
  {
    if n >= 10 {
      ParseShow(n / 10);
      var s := Show(n);
      assert s[..|s| - 1] == Show(n / 10);
      assert s[|s| - 1] as int - '0' as int == n % 10;
      assert Value(s) == (n / 10) * 10 + n % 10;
    }
  }

  /** A leading digit other than zero makes the value positive. */
  lemma {:induction false} ValuePositive(s: string)
    requires |s| >= 1 && AllDigits(s) && s[0] != '0'
    ensures Value(s) >= 1
    decreases |s|
  {
    if |s| > 1 {
      ValuePositive(s[..|s| - 1]);
    }
  }

  /** Canonical text is exactly what its value shows as. */
  lemma {:induction false} ShowParse(s: string)
    requires Canonical(s)
    ensures Show(Value(s)) == s
    decreases |s|
  {
    if |s| > 1 {
      var hi := s[..|s| - 1];
      ValuePositive(hi);
      ShowParse(hi);
      var d := s[|s| - 1] as int - '0' as int;
      assert Value(s) == Value(hi) * 10 + d;
      assert Value(s) / 10 == Value(hi) && Value(s) % 10 == d;
      assert DigitChar(d) == s[|s| - 1];
    }
  }
}

=== FILE: flows.dfy ===
/**
 * Properties that relate several requests to the `/api/auth` router: what a
 * registration lets a later login do, how long a login's token opens the
 * gate, what a profile read shows after an upload or a delete, and what no
 * sequence of requests can ever change.
 */
module AuthFlows {
  import opened Wrappers
  import opened Strings
  import opened Bcrypt
  import opened Jwt
  import opened Users
  import opened AuthRoutes

  /**
   * After a successful registration the same email logs in, as the new id,
   * with the registered password or any other password bcrypt cannot tell
   * from it (the same first 72 bytes, say).
   */
  lemma RegisterThenLogin(s: Store, b: RegisterBody, salt: nat, password: string, secret: string, now: nat)
    requires Valid(s)
    requires Register(s, b, salt, false).reply.status == 201
    requires Key(password) == Key(b.password.value)
    ensures Login(Register(s, b, salt, false).store, b.email.value, password, secret, now, false)
            == Reply(200, LoginBody("Login successful", Sign(Issue(s.nextId, now), secret)))
  {
    var s' := Register(s, b, salt, false).store;
    var u := User(s.nextId, b.name.value, b.email.value, b.dob.value, b.gender.value, Hash(b.password.value, salt), None);
    assert s'.rows[s.nextId] == u;
    assert ByEmail(s', b.email.value) == Some(u);
  }

  /** After a successful registration a password whose effective key differs is refused like an unknown email. */
  lemma RegisterThenWrongPassword(s: Store, b: RegisterBody, salt: nat, password: string, secret: string, now: nat)
    requires Valid(s)
    requires Register(s, b, salt, false).reply.status == 201
    requires Key(password) != Key(b.password.value)
    ensures Login(Register(s, b, salt, false).store, b.email.value, password, secret, now, false) == BadCredentials
  {
    var s' := Register(s, b, salt, false).store;
    var u := User(s.nextId, b.name.value, b.email.value, b.dob.value, b.gender.value, Hash(b.password.value, salt), None);
    assert s'.rows[s.nextId] == u;
    assert ByEmail(s', b.email.value) == Some(u);
  }

  /** Registering an email a second time is refused and leaves the first registration's row as it was. */
  lemma RegisterTwice(s: Store, b1: RegisterBody, b2: RegisterBody, salt1: nat, salt2: nat)
    requires Valid(s)
    requires Register(s, b1, salt1, false).reply.status == 201
    requires Complete(b2) && b2.email == b1.email
    ensures var s1 := Register(s, b1, salt1, false).store;
            && Register(s1, b2, salt2, false) == Step(EmailTaken, s1)
            && s1.rows[s.nextId].password == Hash(b1.password.value, salt1)
            && s1.rows[s.nextId].name == b1.name.value
  {
    var s1 := Register(s, b1, salt1, false).store;
    assert s1.rows[s.nextId].email == b1.email.value;
    assert ByEmail(s1, b1.email.value).Some?;
  }

  /**
   * The token a login returns, sent back as `Bearer <token>`, opens the gate
   * for the user's id at every instant before one hour has passed and at
   * none after.
   */
  lemma LoginTokenLifetime(s: Store, email: string, password: string, secret: string, issuedAt: nat, later: nat)
    requires Valid(s)
    requires Login(s, email, password, secret, issuedAt, false).status == 200
    ensures var token := Login(s, email, password, secret, issuedAt, false).body.token;
            AuthGate(Some("Bearer " + token), secret, later)
            == if later < issuedAt + Lifetime then Admit(ByEmail(s, email).value.id) else Reject(InvalidToken)
  {
    assert Login(s, email, password, secret, issuedAt, false).body.token
           == Sign(Issue(ByEmail(s, email).value.id, issuedAt), secret);
    SignedAdmits(Issue(ByEmail(s, email).value.id, issuedAt), secret, later);
  }

  /** After an upload, reading the profile shows exactly the URL the upload answered with. */
  lemma UploadThenProfile(s: Store, c: Claims, secret: string, now: nat, file: UploadedFile, sep: char, o: Origin)
    requires Valid(s)
    requires c.id in s.rows && now < c.exp
    ensures var r := UploadImage(s, Some("Bearer " + Sign(c, secret)), secret, now, Some(file), sep, o, false, false);
            && r.reply.status == 200
            && GetProfile(r.store, s.rows[c.id].email, o, false).body.view.profileImage == Some(r.reply.body.imageUrl)
  {
    SignedAdmits(c, secret, now);
    var r := UploadImage(s, Some("Bearer " + Sign(c, secret)), secret, now, Some(file), sep, o, false, false);
    var u := s.rows[c.id];
    var p := PublicPath(DiskPath(u.name, file.originalName, sep));
    assert r.store.rows == s.rows[c.id := u.(profileImage := Some(p))];
    assert r.reply.body.imageUrl == UrlPrefix(o) + p;
    NormaliseStoredPath(p, o);
    assert ByEmail(r.store, u.email) == Some(u.(profileImage := Some(p)));
  }

  /**
   * A delete for a user with a stored image succeeds whenever the unlink does
   * not fail with an error other than ENOENT; afterwards the profile reads with
   * no image, and a second delete finds none to remove.
   */
  lemma DeleteThenProfile(s: Store, c: Claims, secret: string, now: nat, unlink: Unlink, o: Origin, unlink2: Unlink)
    requires Valid(s)
    requires c.id in s.rows && now < c.exp
    requires s.rows[c.id].profileImage.Some? && s.rows[c.id].profileImage.value != ""
    requires unlink != UnlinkFailed
    ensures var h := Some("Bearer " + Sign(c, secret));
            var r := DeleteImage(s, h, secret, now, false, unlink, false);
            && r.reply == ImageDeleted
            && GetProfile(r.store, s.rows[c.id].email, o, false).body.view.profileImage.None?
            && DeleteImage(r.store, h, secret, now, false, unlink2, false) == DeleteStep(NoImage, r.store, None)
  {
    SignedAdmits(c, secret, now);
    var h := Some("Bearer " + Sign(c, secret));
    var r := DeleteImage(s, h, secret, now, false, unlink, false);
    assert r.reply == ImageDeleted;
    assert r.store.rows[c.id].email == s.rows[c.id].email;
    assert ByEmail(r.store, s.rows[c.id].email) == Some(r.store.rows[c.id]);
  }

  /**
   * Upload folders are keyed by the display name, not the id: two users with
   * the same name who upload files with the same extension are given the
   * same stored path, so the second upload replaces the first one's file.
   */
  lemma SameNameSharesPath(s: Store, c1: Claims, c2: Claims, secret: string, now: nat,
                           f1: UploadedFile, f2: UploadedFile, sep: char, o: Origin)
    requires Valid(s)
    requires c1.id in s.rows && now < c1.exp && c2.id in s.rows && now < c2.exp
    requires s.rows[c1.id].name == s.rows[c2.id].name
    requires Extname(f1.originalName) == Extname(f2.originalName)
    ensures var r1 := UploadImage(s, Some("Bearer " + Sign(c1, secret)), secret, now, Some(f1), sep, o, false, false);
            var r2 := UploadImage(s, Some("Bearer " + Sign(c2, secret)), secret, now, Some(f2), sep, o, false, false);
            r1.reply.status == 200 && r1.reply == r2.reply
  {
    SignedAdmits(c1, secret, now);
    SignedAdmits(c2, secret, now);
  }

  // ---------------------------------------------------------------------------
  // Sequences of requests

  /** Any request to the router, with what the environment decides for it. */
  datatype Request =
    | RegisterRequest(body: RegisterBody, salt: nat, dbFails: bool)
    | LoginRequest(email: string, password: string, now: nat, dbFails: bool)
    | ProfileRequest(email: string, origin: Origin, dbFails: bool)
    | UpdateRequest(header: Option<string>, now: nat, update: UpdateBody, dbFails: bool)
    | UploadRequest(header: Option<string>, now: nat, file: Option<UploadedFile>, sep: char, origin: Origin,
                    lookupFails: bool, writeFails: bool)
    | DeleteRequest(header: Option<string>, now: nat, lookupFails: bool, unlink: Unlink, writeFails: bool)

  /** The table after one request. */
  function Handle(s: Store, secret: string, req: Request): (s': Store)
    requires Valid(s)
    ensures Valid(s') && Keeps(s, s')
    ensures req.LoginRequest? || req.ProfileRequest? ==> s' == s
  {
    match req
    case RegisterRequest(b, salt, dbFails) => Register(s, b, salt, dbFails).store
    case LoginRequest(_, _, _, _) => s
    case ProfileRequest(_, _, _) => s
    case UpdateRequest(h, now, b, dbFails) => UpdateProfile(s, h, secret, now, b, dbFails).store
    case UploadRequest(h, now, f, sep, o, lf, wf) => UploadImage(s, h, secret, now, f, sep, o, lf, wf).store
    case DeleteRequest(h, now, lf, u, wf) => DeleteImage(s, h, secret, now, lf, u, wf).store
  }

  /** The table after a sequence of requests, in order. */
  function Run(s: Store, secret: string, reqs: seq<Request>): Store
    requires Valid(s)
    decreases |reqs|
  {
    if |reqs| == 0 then s else Run(Handle(s, secret, reqs[0]), secret, reqs[1..])
  }

  /** No sequence of requests breaks the table's integrity, removes a row, or changes an id, email or password. */
  lemma {:induction false} RunKeeps(s: Store, secret: string, reqs: seq<Request>)
    requires Valid(s)
    ensures Valid(Run(s, secret, reqs)) && Keeps(s, Run(s, secret, reqs))
    decreases |reqs|
  {
    if |reqs| > 0 {
      var s1 := Handle(s, secret, reqs[0]);
      RunKeeps(s1, secret, reqs[1..]);
      KeepsTransitive(s, s1, Run(s1, secret, reqs[1..]));
    }
  }
}

=== FILE: profile_screen.dfy ===
/**
 * The profile screen's logic: the multipart metadata `uploadImage` derives
 * from a picked image's URI, the guard on the picker's result, and how the
 * screen's `user` object changes after fetching the profile, uploading an
 * image or deleting it.
 */
module ProfileScreen {
  import opened Wrappers
  import opened Strings

  /** The JSON values the screen handles (objects are flat). */
  datatype Json = JNull | JBool(b: bool) | JNum(n: int) | JStr(s: string)

  /** A flat JSON object; an absent key reads as `undefined`. */
  type Obj = map<string, Json>

  /** JavaScript truthiness. */
  predicate Truthy(j: Json)
  {
    match j
    case JNull => false
    case JBool(b) => b
    case JNum(n) => n != 0
    case JStr(s) => s != ""
  }

  /** `o.key`, `None` standing for `undefined`. */
  function Field(o: Obj, key: string): (r: Option<Json>)
    ensures r.Some? <==> key in o
    ensures r.Some? ==> r.value == o[key]
  {
    if key in o then Some(o[key]) else None
  }

  /** `o.key` used as a condition. */
  predicate HasTruthy(o: Obj, key: string)
  {
    key in o && Truthy(o[key])
  }

  // ---------------------------------------------------------------------------
  // Upload metadata

  /** `uri.split('/').pop()`: the part after the last slash, or all of it. */
  function FileName(uri: string): (name: string)
    ensures '/' !in name
    ensures |name| <= |uri| && uri[|uri| - |name|..] == name
    ensures |name| < |uri| ==> uri[|uri| - |name| - 1] == '/'
  {
    var pieces := Split(uri, '/');
    if |pieces| >= 2 then
      JoinLast(pieces, '/');
      Last(pieces)
    else
      Last(pieces)
  }

  /** The converse: whatever follows the last slash is the file name. */
  lemma FileNameOf(dir: string, name: string)
    requires '/' !in name
    ensures FileName(dir + "/" + name) == name
  {
    var pieces := Split(dir, '/') + [name];
    JoinLast(pieces, '/');
    assert pieces[..|pieces| - 1] == Split(dir, '/');
    assert Join(pieces, '/') == dir + "/" + name;
    SplitJoin(pieces, '/');
  }

  /** `\w`: an ASCII letter, a digit or an underscore. */
  predicate IsWordChar(ch: char)
  {
    'a' <= ch <= 'z' || 'A' <= ch <= 'Z' || '0' <= ch <= '9' || ch == '_'
  }

  /** Where the longest run of word characters that ends the string begins. */
  function WordTailStart(f: string): (k: nat)
    ensures k <= |f|
    ensures forall i :: k <= i < |f| ==> IsWordChar(f[i])
    ensures k > 0 ==> !IsWordChar(f[k - 1])
  {
    if |f| == 0 || !IsWordChar(f[|f| - 1]) then |f|
    else WordTailStart(f[..|f| - 1])
  }

  /** The string ends in a dot followed by one or more word characters. */
  predicate EndsWithDotWord(f: string)
  {
    exists i :: 0 <= i < |f| - 1 && f[i] == '.' && forall j :: i < j < |f| ==> IsWordChar(f[j])
  }

  /** `/\.(\w+)$/.exec(filename)?.[1]`: the word characters after the final dot. */
  function ExtensionMatch(f: string): (r: Option<string>)
    ensures r.Some? <==> EndsWithDotWord(f)
    ensures r.Some? ==>
              && |r.value| >= 1 && |r.value| < |f|
              && f[|f| - |r.value| - 1] == '.' && f[|f| - |r.value|..] == r.value
              && forall i :: 0 <= i < |r.value| ==> IsWordChar(r.value[i])
  {
    var k := WordTailStart(f);
    if 0 < k < |f| && f[k - 1] == '.' then
      assert EndsWithDotWord(f) by {
        assert f[k - 1] == '.' && forall j :: k - 1 < j < |f| ==> IsWordChar(f[j]);
      }
      Some(f[k..])
    else
      assert !EndsWithDotWord(f) by {
        if EndsWithDotWord(f) {
          var i :| 0 <= i < |f| - 1 && f[i] == '.' && forall j :: i < j < |f| ==> IsWordChar(f[j]);
        }
      }
      None
  }

  /** The MIME type sent with the file: `image/<ext>` when the name has such an extension, else just `image`. */
  function MimeType(fileName: string): (t: string)
    ensures EndsWithDotWord(fileName) ==> t == "image/" + ExtensionMatch(fileName).value
    ensures !EndsWithDotWord(fileName) ==> t == "image"
  {
    match ExtensionMatch(fileName)
    case Some(ext) => "image/" + ext
    case None => "image"
  }

  /** A name `stem.ext` with a word-character extension gets `image/ext`, whatever the stem. */
  lemma MimeTypeOf(stem: string, ext: string)
    requires |ext| >= 1 && forall i :: 0 <= i < |ext| ==> IsWordChar(ext[i])
    ensures MimeType(stem + "." + ext) == "image/" + ext
  {
    var f := stem + "." + ext;
    assert f[|stem|] == '.';
    assert forall j :: |stem| < j < |f| ==> f[j] == ext[j - |stem| - 1];
    assert EndsWithDotWord(f);
    var e := ExtensionMatch(f).value;
    assert |e| == |ext|;
    assert e == f[|f| - |ext|..] == ext;
  }

  /** The file part `uploadImage` appends to the form. */
  datatype FilePart = FilePart(uri: string, name: string, mimeType: string)

  /** The part's name is the URI's last segment, and its type is derived from that name. */
  function UploadPart(uri: string): (p: FilePart)
    ensures p.uri == uri && '/' !in p.name
    ensures p.mimeType == "image" || (|p.mimeType| > 6 && p.mimeType[..6] == "image/")
    ensures p.name == FileName(uri) && p.mimeType == MimeType(p.name)
  {
    var name := FileName(uri);
    FilePart(uri, name, MimeType(name))
  }

  // ---------------------------------------------------------------------------
  // Image picker

  datatype Asset = Asset(uri: string)

  /** What `launchImageLibraryAsync` resolves to; `assets` may be null. */
  datatype PickerResult = PickerResult(canceled: bool, assets: Option<seq<Asset>>)

  /** `pickImage`: the URI to upload, if the picker was not cancelled and returned an asset. */
  function PickedUri(r: PickerResult): (uri: Option<string>)
    ensures uri.Some? <==> !r.canceled && r.assets.Some? && |r.assets.value| > 0
    ensures uri.Some? ==> uri.value == r.assets.value[0].uri
  {
    if !r.canceled && r.assets.Some? && |r.assets.value| > 0 then Some(r.assets.value[0].uri) else None
  }

  // ---------------------------------------------------------------------------
  // State updates after a request

  /** What a request came back with: the status was 2xx or not, and the parsed body; or an exception. */
  datatype Answer = Answer(ok: bool, data: Obj) | Threw

  datatype Alert = Alert(title: string, text: Option<Json>)

  /** The screen's `user` after a request, and the alert it shows, if any. */
  datatype Outcome = Outcome(user: Obj, alert: Option<Alert>)

  /** `user` and `user'` agree on every key but `profile_image`. */
  predicate OthersKept(user: Obj, user': Obj)
  {
    && user'.Keys - {"profile_image"} == user.Keys - {"profile_image"}
    && forall k | k in user && k != "profile_image" :: k in user' && user'[k] == user[k]
  }

  /** `data.message || fallback`. */
  function MessageOr(data: Obj, fallback: string): Json
  {
    if HasTruthy(data, "message") then data["message"] else JStr(fallback)
  }

  /** `fetchProfile` after the request: a body with a truthy `message` is an error; any other body becomes the user. */
  function AfterFetch(user: Obj, a: Answer): (r: Outcome)
    ensures a.Threw? ==> r == Outcome(user, Some(Alert("Error", Some(JStr("Failed to fetch profile")))))
    ensures a.Answer? && HasTruthy(a.data, "message") ==> r == Outcome(user, Some(Alert("Error", Some(a.data["message"]))))
    ensures a.Answer? && !HasTruthy(a.data, "message") ==> r == Outcome(a.data, None)
  {
    match a
    case Threw => Outcome(user, Some(Alert("Error", Some(JStr("Failed to fetch profile")))))
    case Answer(_, data) =>
      if HasTruthy(data, "message") then Outcome(user, Some(Alert("Error", Some(data["message"]))))
      else Outcome(data, None)
  }

  /** `uploadImage` after the request: on success only `profile_image` changes, to the returned URL. */
  function AfterUpload(user: Obj, a: Answer): (r: Outcome)
    ensures OthersKept(user, r.user)
    ensures r.user != user ==> a.Answer? && a.ok && HasTruthy(a.data, "imageUrl")
    ensures a.Answer? && a.ok && HasTruthy(a.data, "imageUrl") ==>
              && "profile_image" in r.user && r.user["profile_image"] == a.data["imageUrl"]
              && r.alert == Some(Alert("Success", Some(JStr("Image uploaded"))))
    ensures a.Answer? && !(a.ok && HasTruthy(a.data, "imageUrl")) ==>
              r == Outcome(user, Some(Alert("Upload Failed", Some(MessageOr(a.data, "Try again")))))
    ensures a.Threw? ==> r == Outcome(user, Some(Alert("Error", Some(JStr("Could not upload image")))))
  {
    match a
    case Threw => Outcome(user, Some(Alert("Error", Some(JStr("Could not upload image")))))
    case Answer(ok, data) =>
      if ok && HasTruthy(data, "imageUrl") then
        Outcome(user["profile_image" := data["imageUrl"]], Some(Alert("Success", Some(JStr("Image uploaded")))))
      else Outcome(user, Some(Alert("Upload Failed", Some(MessageOr(data, "Try again")))))
  }

  /** `deleteImage` after the request: on a 2xx answer only `profile_image` changes, to null. */
  function AfterDelete(user: Obj, a: Answer): (r: Outcome)
    ensures OthersKept(user, r.user)
    ensures r.user != user ==> a.Answer? && a.ok
    ensures a.Answer? && a.ok ==>
              && "profile_image" in r.user && r.user["profile_image"] == JNull
              && r.alert == Some(Alert("Success", Some(JStr("Image deleted"))))
    ensures a.Answer? && !a.ok ==> r == Outcome(user, Some(Alert("Failed", Field(a.data, "message"))))
    ensures a.Threw? ==> r == Outcome(user, Some(Alert("Error", Some(JStr("Failed to delete image")))))
  {
    match a
    case Threw => Outcome(user, Some(Alert("Error", Some(JStr("Failed to delete image")))))
    case Answer(ok, data) =>
      if ok then Outcome(user["profile_image" := JNull], Some(Alert("Success", Some(JStr("Image deleted")))))
      else Outcome(user, Some(Alert("Failed", Field(data, "message"))))
  }
}

=== FILE: register_screen.dfy ===
/**
 * The registration screen: the checks `handleRegister` runs before it
 * sends anything, the body it sends, the alert it shows for the server's
 * answer, and the rule that the terms box can only be ticked once the
 * terms have been opened.
 */
module RegisterScreen {
  import opened Wrappers

  /** The screen's state. Every text field starts empty; both flags start false. */
  datatype Form = Form(
    name: string,
    email: string,
    dob: string,
    gender: string,
    password: string,
    confirmPassword: string,
    hasViewedTerms: bool,
    agreed: bool)

  /** The JSON body of `POST /api/auth/register`. There is no field for the confirmation. */
  datatype RegisterRequest = RegisterRequest(name: string, email: string, dob: string, gender: string, password: string)

  datatype Alert = Alert(title: string, message: string)

  /** Either the screen stops with an alert, or it sends the request. */
  datatype Submit = Blocked(alert: Alert) | Send(request: RegisterRequest)

  const MissingFields: Alert := Alert("Error", "All fields are required")
  const PasswordMismatch: Alert := Alert("Error", "Passwords do not match")
  const TermsNotAccepted: Alert := Alert("Error", "You must accept the Terms and Conditions")

  /** All six text fields are non-empty (JavaScript truthiness of a string). */
  predicate Filled(f: Form)
  {
    f.name != "" && f.email != "" && f.dob != "" && f.gender != "" && f.password != "" && f.confirmPassword != ""
  }

  /**
   * `handleRegister` up to the request: missing fields, then the password
   * confirmation, then the terms; the first failing check decides the alert.
   */
  function HandleRegister(f: Form): (r: Submit)
    ensures r.Send? <==> Filled(f) && f.password == f.confirmPassword && f.agreed
    ensures r.Send? ==> r.request == RegisterRequest(f.name, f.email, f.dob, f.gender, f.password)
    ensures !Filled(f) ==> r == Blocked(MissingFields)
    ensures Filled(f) && f.password != f.confirmPassword ==> r == Blocked(PasswordMismatch)
    ensures Filled(f) && f.password == f.confirmPassword && !f.agreed ==> r == Blocked(TermsNotAccepted)
  {
    if !Filled(f) then Blocked(MissingFields)
    else if f.password != f.confirmPassword then Blocked(PasswordMismatch)
    else if !f.agreed then Blocked(TermsNotAccepted)
    else Send(RegisterRequest(f.name, f.email, f.dob, f.gender, f.password))
  }

  /**
   * The order of the checks: with a field missing, no choice of passwords or
   * of the terms box changes the outcome; with the fields filled and the
   * passwords differing, the terms box does not either.
   */
  lemma FirstFailureWins(f: Form, password: string, confirmPassword: string, agreed: bool)
    ensures (f.name == "" || f.email == "" || f.dob == "" || f.gender == "") ==>
              HandleRegister(f.(password := password, confirmPassword := confirmPassword, agreed := agreed))
              == Blocked(MissingFields)
    ensures Filled(f) && f.password != f.confirmPassword ==>
              HandleRegister(f.(agreed := agreed)) == Blocked(PasswordMismatch)
  {
  }

  /** Only the fields the body carries matter: the confirmation never reaches the server. */
  lemma RequestIgnoresConfirmation(f: Form, g: Form)
    requires HandleRegister(f).Send? && HandleRegister(g).Send?
    requires f.(confirmPassword := g.confirmPassword, hasViewedTerms := g.hasViewedTerms) == g
    ensures HandleRegister(f).request == HandleRegister(g).request
  {
  }

  /** How the screen reports what came back: a JSON answer, or a failed fetch. */
  datatype Answer = Answer(ok: bool, message: Option<string>) | NoAnswer

  /** The alert after the request: success, the server's message (or a fallback), or a network failure. */
  function Feedback(a: Answer): (r: Alert)
    ensures a.Answer? && a.ok ==> r == Alert("Success", "Registered successfully")
    ensures a.NoAnswer? ==> r == Alert("Error", "Could not register")
    ensures a.Answer? && !a.ok ==>
              r == Alert("Error", if a.message.Some? && a.message.value != "" then a.message.value else "Registration failed")
  {
    match a
    case NoAnswer => Alert("Error", "Could not register")
    case Answer(ok, message) =>
      if ok then Alert("Success", "Registered successfully")
      else Alert("Error", if message.Some? && message.value != "" then message.value else "Registration failed")
  }

  // ---------------------------------------------------------------------------
  // The terms checkbox

  /** The two flags that govern the checkbox. */
  datatype Terms = Terms(hasViewedTerms: bool, agreed: bool)

  /** Opening the terms screen, or pressing the checkbox. */
  datatype TermsEvent = OpenTerms | PressAgree

  const InitialTerms: Terms := Terms(false, false)

  /** `openTerms` sets the viewed flag; a press flips `agreed`, except that a disabled box ignores it. */
  function OnEvent(t: Terms, e: TermsEvent): (r: Terms)
    ensures r.hasViewedTerms == (t.hasViewedTerms || e == OpenTerms)
    ensures r.agreed != t.agreed <==> e == PressAgree && t.hasViewedTerms
  {
    match e
    case OpenTerms => t.(hasViewedTerms := true)
    case PressAgree => if t.hasViewedTerms then t.(agreed := !t.agreed) else t
  }

  /** The flags after a sequence of events, in order. */
  function Replay(t: Terms, es: seq<TermsEvent>): Terms
  {
    if |es| == 0 then t else OnEvent(Replay(t, es[..|es| - 1]), es[|es| - 1])
  }

  /** The number of presses that come after the first opening of the terms. */
  function PressesAfterOpening(es: seq<TermsEvent>): nat
  {
    if |es| == 0 then 0
    else
      var init := es[..|es| - 1];
      PressesAfterOpening(init) + if es[|es| - 1] == PressAgree && OpenTerms in init then 1 else 0
  }

  /**
   * From the initial state, the terms count as viewed exactly when they were
   * opened, and the box is ticked exactly when an odd number of presses
   * followed the first opening.
   */
  lemma {:induction false} ReplayFromStart(es: seq<TermsEvent>)
    ensures Replay(InitialTerms, es).hasViewedTerms <==> OpenTerms in es
    ensures Replay(InitialTerms, es).agreed <==> PressesAfterOpening(es) % 2 == 1
    decreases |es|
  {
    if |es| > 0 {
      var init := es[..|es| - 1];
      ReplayFromStart(init);
      assert es == init + [es[|es| - 1]];
      assert OpenTerms in es <==> OpenTerms in init || es[|es| - 1] == OpenTerms;
    }
  }

  /** The box can only be ticked after the terms were opened. */
  lemma AgreedOnlyAfterViewing(es: seq<TermsEvent>)
    requires Replay(InitialTerms, es).agreed
    ensures OpenTerms in es
  {
    ReplayFromStart(es);
  }
}

=== FILE: routes.dfy ===
/**
 * The router mounted at `/api/auth`: the bearer-token gate and the six request handlers.
 * Each handler is a pure function from the table and the request to a reply
 * and the new table. What the database, the clock, the random salt and the
 * filesystem decide is passed in as parameters.
 */
module AuthRoutes {
  import opened Wrappers
  import opened Strings
  import opened Bcrypt
  import opened Jwt
  import opened Users

  /** The public part of a row: everything but the password. */
  datatype View = View(id: nat, name: string, email: string, dob: string, gender: string, profileImage: Option<string>)

  /** Reply bodies: the JSON objects the handlers send, and Express's own error page. */
  datatype Body =
    | Message(text: string)
    | LoginBody(text: string, token: string)
    | ProfileBody(view: View)
    | UploadBody(text: string, imageUrl: string)
    | ErrorPage(text: string)

  datatype Reply = Reply(status: nat, body: Body)

  /** A reply together with the table after the request. */
  datatype Step = Step(reply: Reply, store: Store)

  /** `req.protocol` and `req.get('host')`. */
  datatype Origin = Origin(protocol: string, host: string)

  function UrlPrefix(o: Origin): string
  {
    o.protocol + "://" + o.host
  }

  // ---------------------------------------------------------------------------
  // Authorization gate (authMiddleware)

  const Unauthorized: Reply := Reply(401, Message("Unauthorized"))
  const InvalidToken: Reply := Reply(401, Message("Invalid token"))

  /** A header is `scheme`, a space, `token`, and then nothing or a space and anything. */
  predicate HasSecondPiece(header: string, scheme: string, token: string)
  {
    ' ' !in scheme && ' ' !in token
    && (header == scheme + " " + token || StartsWith(header, scheme + " " + token + " "))
  }

  /**
   * `req.headers.authorization?.split(' ')[1]`, kept only when truthy.
   * The first piece is never looked at: any scheme word is accepted.
   */
  function BearerToken(header: Option<string>): (r: Option<string>)
    ensures header.None? ==> r.None?
    ensures r.Some? ==> r.value != "" && exists scheme :: HasSecondPiece(header.value, scheme, r.value)
  {
    match header
    case None => None
    case Some(h) =>
      var pieces := Split(h, ' ');
      if |pieces| >= 2 && pieces[1] != "" then
        assert HasSecondPiece(h, pieces[0], pieces[1]) by {
          if |pieces| == 2 {
            assert pieces == [pieces[0], pieces[1]];
            assert Join(pieces, ' ') == pieces[0] + [' '] + Join(pieces[1..], ' ');
          } else {
            assert Join(pieces, ' ') == pieces[0] + [' '] + Join(pieces[1..], ' ');
            assert Join(pieces[1..], ' ') == pieces[1] + [' '] + Join(pieces[2..], ' ');
            assert h == (pieces[0] + " " + pieces[1] + " ") + Join(pieces[2..], ' ');
          }
        }
        Some(pieces[1])
      else None
  }

  /** The converse: the second piece of such a header is extracted. */
  lemma BearerTokenOf(header: string, scheme: string, token: string)
    requires token != ""
    requires HasSecondPiece(header, scheme, token)
    ensures BearerToken(Some(header)) == Some(token)
  {
    var pieces;
    if header == scheme + " " + token {
      pieces := SecondPieceSplit(scheme, token, "");
    } else {
      var rest := header[|scheme| + |token| + 1..];
      assert header == scheme + " " + token + rest by {
        assert header[..|scheme| + |token| + 1] == scheme + " " + token;
      }
      pieces := SecondPieceSplit(scheme, token, rest);
    }
  }

  /** The pieces of `scheme token rest`, where `rest` is empty or starts with a space. */
  lemma SecondPieceSplit(scheme: string, token: string, rest: string) returns (pieces: seq<string>)
    requires ' ' !in scheme && ' ' !in token
    requires rest == "" || rest[0] == ' '
    ensures Split(scheme + " " + token + rest, ' ') == pieces && |pieces| >= 2 && pieces[1] == token
  {
    var header := scheme + " " + token + rest;
    if rest == "" {
      pieces := [scheme, token];
      JoinCons(scheme, [token], ' ');
      assert [scheme] + [token] == pieces;
      assert header == scheme + " " + token;
    } else {
      var tail := Split(rest[1..], ' ');
      pieces := [scheme, token] + tail;
      JoinTwoMore(scheme, token, tail, ' ');
      assert rest == " " + Join(tail, ' ');
      assert forall i :: 2 <= i < |pieces| ==> pieces[i] == tail[i - 2];
    }
    assert Join(pieces, ' ') == header;
    assert forall i :: 0 <= i < |pieces| ==> ' ' !in pieces[i];
    SplitJoin(pieces, ' ');
  }

  /** Joining two pieces in front of at least one more. */
  lemma JoinTwoMore(a: string, b: string, tail: seq<string>, c: char)
    requires |tail| >= 1
    ensures Join([a, b] + tail, c) == a + [c] + b + ([c] + Join(tail, c))
  {
    JoinCons(b, tail, c);
    JoinCons(a, [b] + tail, c);
    assert [a] + ([b] + tail) == [a, b] + tail;
  }

  /** What the gate does with a request: admit it for a subject, or answer it. */
  datatype Gate = Admit(id: nat) | Reject(reply: Reply)

  /**
   * `authMiddleware`: a missing token is refused before verification; a token
   * the verifier refuses (malformed, badly signed, expired) is refused
   * alike; a verified token admits the request for its subject.
   */
  function AuthGate(header: Option<string>, secret: string, now: nat): (g: Gate)
    ensures BearerToken(header).None? ==> g == Reject(Unauthorized)
    ensures BearerToken(header).Some? && g.Reject? ==> g == Reject(InvalidToken)
    ensures g.Admit? ==> exists c :: BearerToken(header) == Some(Sign(c, secret)) && c.id == g.id && now < c.exp
    ensures forall c {:trigger Sign(c, secret)} :: BearerToken(header) == Some(Sign(c, secret)) ==>
              g == if now < c.exp then Admit(c.id) else Reject(InvalidToken)
  {
    match BearerToken(header)
    case None => Reject(Unauthorized)
    case Some(token) =>
      var v := Verify(token, secret, now);
      forall c | token == Sign(c, secret)
        ensures v == if now < c.exp then Ok(c) else Err(Expired)
      {
        VerifySigned(c, secret, now);
      }
      match v
      case Err(_) => Reject(InvalidToken)
      case Ok(c) =>
        VerifySound(token, secret, now, c);
        Admit(c.id)
  }

  /** `Bearer <token>`, with a token signed for `c`, admits the request as `c.id` before `c.exp` and refuses it after. */
  lemma SignedAdmits(c: Claims, secret: string, now: nat)
    ensures AuthGate(Some("Bearer " + Sign(c, secret)), secret, now)
            == if now < c.exp then Admit(c.id) else Reject(InvalidToken)
  {
    var token := Sign(c, secret);
    assert "Bearer " + token == "Bearer" + " " + token;
    BearerTokenOf("Bearer " + token, "Bearer", token);
  }

  // ---------------------------------------------------------------------------
  // POST /register

  /** The body fields; `None` is a field the client left out. */
  datatype RegisterBody = RegisterBody(
    name: Option<string>,
    email: Option<string>,
    dob: Option<string>,
    gender: Option<string>,
    password: Option<string>)

  /** A string field is truthy when present and non-empty. */
  predicate Present(f: Option<string>)
  {
    f.Some? && f.value != ""
  }

  predicate Complete(b: RegisterBody)
  {
    Present(b.name) && Present(b.email) && Present(b.dob) && Present(b.gender) && Present(b.password)
  }

  const FieldsRequired: Reply := Reply(400, Message("All fields required"))
  const EmailTaken: Reply := Reply(409, Message("Email already registered"))
  const DatabaseError: Reply := Reply(500, Message("Database error"))
  const Registered: Reply := Reply(201, Message("User registered"))

  /**
   * Validation, then the INSERT. `salt` is the library's random salt;
   * `dbFails` is an INSERT error other than the unique-key violation.
   */
  function Register(s: Store, b: RegisterBody, salt: nat, dbFails: bool): (r: Step)
    requires Valid(s)
    ensures Valid(r.store) && Keeps(s, r.store)
    ensures !Complete(b) ==> r == Step(FieldsRequired, s)
    ensures Complete(b) && dbFails ==> r == Step(DatabaseError, s)
    ensures Complete(b) && !dbFails && ByEmail(s, b.email.value).Some? ==> r == Step(EmailTaken, s)
    ensures r.reply.status == 201 <==> Complete(b) && !dbFails && ByEmail(s, b.email.value).None?
    ensures r.reply.status == 201 ==>
              && r.reply == Registered
              && r.store.rows == s.rows[s.nextId := User(s.nextId, b.name.value, b.email.value, b.dob.value,
                                                       b.gender.value, Hash(b.password.value, salt), None)]
              && |r.store.rows| == |s.rows| + 1
  {
    if !Complete(b) then Step(FieldsRequired, s)
    else if dbFails then Step(DatabaseError, s)
    else
      match Insert(s, b.name.value, b.email.value, b.dob.value, b.gender.value, Hash(b.password.value, salt))
      case Err(DuplicateEmail) => Step(EmailTaken, s)
      case Ok(s') => Step(Registered, s')
  }

  // ---------------------------------------------------------------------------
  // POST /login

  const BadCredentials: Reply := Reply(401, Message("Invalid email or password"))

  /**
   * Look the email up, compare the password, and sign `{ id }` for one hour.
   * A database error, an unknown email and a wrong password give one and the same reply.
   */
  function Login(s: Store, email: string, password: string, secret: string, now: nat, dbFails: bool): (r: Reply)
    requires Valid(s)
    ensures r.status == 200 || r == BadCredentials
    ensures r.status == 200 <==>
              !dbFails && ByEmail(s, email).Some? && Matches(password, ByEmail(s, email).value.password)
    ensures r.status == 200 ==>
              r.body == LoginBody("Login successful", Sign(Claims(ByEmail(s, email).value.id, now + Lifetime), secret))
  {
    if dbFails then BadCredentials
    else
      match ByEmail(s, email)
      case None => BadCredentials
      case Some(u) =>
        if !Matches(password, u.password) then BadCredentials
        else Reply(200, LoginBody("Login successful", Sign(Issue(u.id, now), secret)))
  }

  // ---------------------------------------------------------------------------
  // GET /profile/:email (not gated)

  /**
   * The image field of a profile read: an empty or NULL path reads as null,
   * an absolute `http...` URL is kept, and a stored path is prefixed with the
   * request's protocol and host.
   */
  function NormaliseImage(stored: Option<string>, o: Origin): (r: Option<string>)
    ensures (stored.None? || stored == Some("")) <==> r.None?
    ensures stored.Some? && StartsWith(stored.value, "http") ==> r == stored
    ensures stored.Some? && stored.value != "" && !StartsWith(stored.value, "http") ==>
              r == Some(UrlPrefix(o) + stored.value)
  {
    match stored
    case None => None
    case Some(p) =>
      if p == "" then None
      else if StartsWith(p, "http") then Some(p)
      else Some(UrlPrefix(o) + p)
  }

  /** Normalising twice is normalising once, since a request's protocol is `http` or `https`. */
  lemma NormaliseIdempotent(stored: Option<string>, o: Origin)
    requires StartsWith(o.protocol, "http")
    ensures NormaliseImage(NormaliseImage(stored, o), o) == NormaliseImage(stored, o)
  {
    if stored.Some? && stored.value != "" && !StartsWith(stored.value, "http") {
      var u := UrlPrefix(o) + stored.value;
      assert u[..4] == o.protocol[..4];
    }
  }

  /** A stored path (leading slash) reads back as the request's origin followed by the path. */
  lemma NormaliseStoredPath(p: string, o: Origin)
    requires |p| > 0 && p[0] == '/'
    ensures NormaliseImage(Some(p), o) == Some(UrlPrefix(o) + p)
  {
    assert !StartsWith(p, "http") by {
      assert "http"[0] == 'h';
    }
  }

  const UserNotFound: Reply := Reply(404, Message("User not found"))

  /** The public view of the row with that email; the password digest is not part of it. */
  function GetProfile(s: Store, email: string, o: Origin, dbFails: bool): (r: Reply)
    requires Valid(s)
    ensures r.status == 200 || r == UserNotFound
    ensures r.status == 200 <==> !dbFails && ByEmail(s, email).Some?
    ensures r.status == 200 ==>
              var u := ByEmail(s, email).value;
              && r.body.ProfileBody?
              && r.body.view == View(u.id, u.name, u.email, u.dob, u.gender, NormaliseImage(u.profileImage, o))
  {
    if dbFails then UserNotFound
    else
      match ByEmail(s, email)
      case None => UserNotFound
      case Some(u) => Reply(200, ProfileBody(View(u.id, u.name, u.email, u.dob, u.gender, NormaliseImage(u.profileImage, o))))
  }

  // ---------------------------------------------------------------------------
  // PUT /profile (gated)

  /** The body fields the handler reads; any other field, an id included, is ignored. */
  datatype UpdateBody = UpdateBody(name: string, dob: string, gender: string, profileImage: Option<string>)

  const ProfileUpdated: Reply := Reply(200, Message("Profile updated successfully"))

  /**
   * The gate, then `UPDATE users SET name, dob, gender, profile_image WHERE id = <subject>`.
   * Only the subject's row changes; its id, email and password stay.
   * An admitted subject without a row still gets 200, and nothing changes.
   */
  function UpdateProfile(s: Store, header: Option<string>, secret: string, now: nat, b: UpdateBody, dbFails: bool)
    : (r: Step)
    requires Valid(s)
    ensures Valid(r.store) && Keeps(s, r.store)
    ensures AuthGate(header, secret, now).Reject? ==> r == Step(AuthGate(header, secret, now).reply, s)
    ensures r.reply.status == 200 <==> AuthGate(header, secret, now).Admit? && !dbFails
    ensures r.reply.status == 200 ==> r.reply == ProfileUpdated
    ensures AuthGate(header, secret, now).Admit? && dbFails ==> r == Step(DatabaseError, s)
    ensures r.reply.status != 200 ==> r.store == s
    ensures r.store.rows.Keys == s.rows.Keys && r.store.byEmail == s.byEmail && r.store.nextId == s.nextId
    ensures forall id | id in s.rows && r.store.rows[id] != s.rows[id] ::
              && AuthGate(header, secret, now) == Admit(id)
              && r.store.rows[id] == s.rows[id].(name := b.name, dob := b.dob, gender := b.gender,
                                                 profileImage := b.profileImage)
    ensures AuthGate(header, secret, now).Admit? && !dbFails && AuthGate(header, secret, now).id in s.rows ==>
              var id := AuthGate(header, secret, now).id;
              r.store.rows[id] == s.rows[id].(name := b.name, dob := b.dob, gender := b.gender,
                                              profileImage := b.profileImage)
  {
    match AuthGate(header, secret, now)
    case Reject(reply) => Step(reply, s)
    case Admit(id) =>
      if dbFails then Step(DatabaseError, s)
      else Step(ProfileUpdated, UpdateById(s, id, ProfileFields(b.name, b.dob, b.gender, b.profileImage)))
  }

  // ---------------------------------------------------------------------------
  // POST /upload-profile-image (gated; multer disk storage)

  /**
   * `path.extname` of a file's base name (no separators): from the last dot
   * on, except that a name with no dot, a leading dot only (".bashrc") or
   * ".." has none.
   */
  function Extname(base: string): (ext: string)
    ensures ext == "" || (ext[0] == '.' && '.' !in ext[1..] && |ext| < |base| && base[|base| - |ext|..] == ext)
    ensures '.' !in base ==> ext == ""
    ensures base == ".." ==> ext == ""
  {
    match LastIndexOf(base, '.')
    case None => ""
    case Some(i) =>
      if i == 0 || base == ".." then ""
      else
        assert base[i..][1..] == base[i + 1..];
        base[i..]
  }

  /** The extension of `stem.e` is `.e` when `e` has no dot and the stem is neither empty nor a lone dot with `e` empty. */
  lemma ExtnameOf(stem: string, e: string)
    requires '.' !in e && stem != "" && !(stem == "." && e == "")
    ensures Extname(stem + "." + e) == "." + e
  {
    var base := stem + "." + e;
    var k := |stem|;
    assert base[k] == '.';
    assert base[k + 1..] == e;
    var r := LastIndexOf(base, '.');
    assert r == Some(k) by {
      assert '.' in base by { assert base[k] == '.'; }
    }
    assert base != ".." by {
      assert base[0] == stem[0];
      if |stem| == 1 && e == "" {
        assert stem == [stem[0]];
        assert stem[0] != '.';
      }
    }
    assert base[k..] == "." + e;
  }

  /** multer `destination`: one folder per user, named after the user's display name. */
  function ImageFolder(name: string): string
  {
    "uploads/" + name
  }

  /** multer `filename`: always `profile` plus the original extension. */
  function ImageFileName(originalName: string): string
  {
    "profile" + Extname(originalName)
  }

  /** `req.file.path`: folder and file name joined with the platform separator `sep`. */
  function DiskPath(name: string, originalName: string, sep: char): string
  {
    ImageFolder(name) + [sep] + ImageFileName(originalName)
  }

  /** The stored path: a leading slash, and every backslash turned into a slash. */
  function PublicPath(diskPath: string): (p: string)
    ensures |p| == |diskPath| + 1 && p[0] == '/' && '\\' !in p
    ensures forall i :: 0 <= i < |diskPath| ==> p[i + 1] == if diskPath[i] == '\\' then '/' else diskPath[i]
  {
    "/" + ReplaceChar(diskPath, '\\', '/')
  }

  /**
   * On either platform the stored path is `/uploads/<name>/profile<ext>` with
   * every backslash of the name and extension turned into a slash: a display
   * name holding a backslash is stored as a deeper path than its folder.
   * Without backslashes the stored path is folder and file name verbatim.
   */
  lemma PublicPathOfUpload(name: string, originalName: string, sep: char)
    requires sep == '/' || sep == '\\'
    ensures PublicPath(DiskPath(name, originalName, sep))
            == "/" + ReplaceChar(ImageFolder(name), '\\', '/') + "/" + ReplaceChar(ImageFileName(originalName), '\\', '/')
    ensures '\\' !in name && '\\' !in originalName ==>
              PublicPath(DiskPath(name, originalName, sep)) == "/" + ImageFolder(name) + "/" + ImageFileName(originalName)
  {
    var f := ImageFolder(name);
    var g := ImageFileName(originalName);
    var rf := ReplaceChar(f, '\\', '/');
    var rg := ReplaceChar(g, '\\', '/');
    ReplaceJoined(f, sep, g);
    assert ReplaceChar([sep], '\\', '/') == "/" by {
      assert ReplaceChar([sep], '\\', '/')[0] == '/';
    }
    calc {
      PublicPath(DiskPath(name, originalName, sep));
      "/" + ReplaceChar(f + [sep] + g, '\\', '/');
      "/" + (rf + "/" + rg);
      "/" + rf + "/" + rg;
    }
    if '\\' !in name && '\\' !in originalName {
      UploadNamesVerbatim(name, originalName);
    }
  }

  /** Without backslashes in the name and original name, folder and file name need no replacing. */
  lemma UploadNamesVerbatim(name: string, originalName: string)
    requires '\\' !in name && '\\' !in originalName
    ensures ReplaceChar(ImageFolder(name), '\\', '/') == ImageFolder(name)
    ensures ReplaceChar(ImageFileName(originalName), '\\', '/') == ImageFileName(originalName)
  {
    var ext := Extname(originalName);
    assert '\\' !in ext by {
      if ext != "" {
        assert ext == originalName[|originalName| - |ext|..];
      }
    }
    ReplaceAbsent(ImageFolder(name), '\\', '/');
    ReplaceAbsent(ImageFileName(originalName), '\\', '/');
  }

  /** Replacing backslashes in `a`, `sep`, `b` replaces them in each part. */
  lemma ReplaceJoined(a: string, sep: char, b: string)
    ensures ReplaceChar(a + [sep] + b, '\\', '/')
            == ReplaceChar(a, '\\', '/') + ReplaceChar([sep], '\\', '/') + ReplaceChar(b, '\\', '/')
  {
    ReplaceConcat(a + [sep], b, '\\', '/');
    ReplaceConcat(a, [sep], '\\', '/');
  }

  /** The file part of the multipart body, as multer reports it. */
  datatype UploadedFile = UploadedFile(originalName: string)

  const NoFile: Reply := Reply(400, Message("No file uploaded"))

  /**
   * The gate; then, when a file was sent, multer looks up the subject's name
   * to choose the folder (a failure there reaches Express's error page);
   * then the handler stores the public path on the subject's row and answers
   * with its URL. `lookupFails` and `writeFails` are the two queries' errors.
   */
  function UploadImage(s: Store, header: Option<string>, secret: string, now: nat, file: Option<UploadedFile>,
                       sep: char, o: Origin, lookupFails: bool, writeFails: bool): (r: Step)
    requires Valid(s)
    ensures Valid(r.store) && Keeps(s, r.store)
    ensures AuthGate(header, secret, now).Reject? ==> r == Step(AuthGate(header, secret, now).reply, s)
    ensures AuthGate(header, secret, now).Admit? && file.None? ==> r == Step(NoFile, s)
    ensures AuthGate(header, secret, now).Admit? && file.Some?
            && (lookupFails || AuthGate(header, secret, now).id !in s.rows)
            ==> r == Step(Reply(500, ErrorPage("User not found")), s)
    ensures AuthGate(header, secret, now).Admit? && file.Some? && !lookupFails
            && AuthGate(header, secret, now).id in s.rows && writeFails
            ==> r == Step(DatabaseError, s)
    ensures r.reply.status == 200 <==>
              AuthGate(header, secret, now).Admit? && file.Some? && !lookupFails && !writeFails
              && AuthGate(header, secret, now).id in s.rows
    ensures r.reply.status != 200 ==> r.store == s
    ensures r.reply.status == 200 ==>
              var id := AuthGate(header, secret, now).id;
              var p := PublicPath(DiskPath(s.rows[id].name, file.value.originalName, sep));
              && r.store.rows == s.rows[id := s.rows[id].(profileImage := Some(p))]
              && r.reply.body == UploadBody("Image uploaded", UrlPrefix(o) + p)
  {
    match AuthGate(header, secret, now)
    case Reject(reply) => Step(reply, s)
    case Admit(id) => UploadAs(s, id, file, sep, o, lookupFails, writeFails)
  }

  /** The upload handler once the gate has admitted `id`. */
  function UploadAs(s: Store, id: nat, file: Option<UploadedFile>, sep: char, o: Origin,
                    lookupFails: bool, writeFails: bool): (r: Step)
    requires Valid(s)
    ensures Valid(r.store) && Keeps(s, r.store)
    ensures file.None? ==> r == Step(NoFile, s)
    ensures file.Some? && (lookupFails || id !in s.rows) ==> r == Step(Reply(500, ErrorPage("User not found")), s)
    ensures file.Some? && !lookupFails && id in s.rows && writeFails ==> r == Step(DatabaseError, s)
    ensures r.reply.status == 200 <==> file.Some? && !lookupFails && !writeFails && id in s.rows
    ensures r.reply.status != 200 ==> r.store == s
    ensures r.reply.status == 200 ==>
              var p := PublicPath(DiskPath(s.rows[id].name, file.value.originalName, sep));
              && r.store.rows == s.rows[id := s.rows[id].(profileImage := Some(p))]
              && r.reply.body == UploadBody("Image uploaded", UrlPrefix(o) + p)
  {
    if file.None? then Step(NoFile, s)
    else if lookupFails || id !in s.rows then Step(Reply(500, ErrorPage("User not found")), s)
    else
      var p := PublicPath(DiskPath(s.rows[id].name, file.value.originalName, sep));
      if writeFails then Step(DatabaseError, s)
      else Step(Reply(200, UploadBody("Image uploaded", UrlPrefix(o) + p)), UpdateById(s, id, ImageOnly(Some(p))))
  }

  // ---------------------------------------------------------------------------
  // DELETE /profile-image (gated)

  /** What `fs.unlink` reports: success, ENOENT, or any other error. */
  datatype Unlink = Removed | NoSuchFile | UnlinkFailed

  /** A reply, the table after the request, and the path the handler asked the filesystem to remove. */
  datatype DeleteStep = DeleteStep(reply: Reply, store: Store, unlinked: Option<string>)

  const NoImage: Reply := Reply(400, Message("No image to delete"))
  const CannotDelete: Reply := Reply(500, Message("Could not delete image"))
  const ImageDeleted: Reply := Reply(200, Message("Image deleted"))

  /**
   * The gate; the subject's row (404 when missing); 400 when it has no image,
   * before the filesystem is touched; the unlink, where only an error other
   * than ENOENT stops the request; then the path is set to NULL.
   */
  function DeleteImage(s: Store, header: Option<string>, secret: string, now: nat, lookupFails: bool,
                       unlink: Unlink, writeFails: bool): (r: DeleteStep)
    requires Valid(s)
    ensures Valid(r.store) && Keeps(s, r.store)
    ensures r.reply.status != 200 ==> r.store == s
    ensures AuthGate(header, secret, now).Reject? ==> r == DeleteStep(AuthGate(header, secret, now).reply, s, None)
    ensures AuthGate(header, secret, now).Admit? ==>
              var id := AuthGate(header, secret, now).id;
              && (lookupFails || id !in s.rows <==> r.reply == UserNotFound)
              && (r.reply == UserNotFound ==> r.unlinked.None?)
              && (!lookupFails && id in s.rows ==>
                    var img := s.rows[id].profileImage;
                    && (img.None? || img == Some("") <==> r.reply == NoImage)
                    && (r.reply == NoImage ==> r.unlinked.None?)
                    && (img.Some? && img.value != "" ==>
                          && r.unlinked == img
                          && (unlink == UnlinkFailed ==> r.reply == CannotDelete)
                          && (unlink != UnlinkFailed && writeFails ==> r.reply == DatabaseError)
                          && (unlink != UnlinkFailed && !writeFails ==>
                                && r.reply == ImageDeleted
                                && r.store.rows == s.rows[id := s.rows[id].(profileImage := None)])))
  {
    match AuthGate(header, secret, now)
    case Reject(reply) => DeleteStep(reply, s, None)
    case Admit(id) =>
      if lookupFails || id !in s.rows then DeleteStep(UserNotFound, s, None)
      else
        var img := s.rows[id].profileImage;
        if img.None? || img.value == "" then DeleteStep(NoImage, s, None)
        else if unlink == UnlinkFailed then DeleteStep(CannotDelete, s, img)
        else if writeFails then DeleteStep(DatabaseError, s, img)
        else DeleteStep(ImageDeleted, UpdateById(s, id, ImageOnly(None)), img)
  }
}

=== FILE: strings.dfy ===
/**
 * The few JavaScript string operations the application relies on:
 * `String.prototype.split` with a one-character separator, `Array.prototype.pop`
 * on its result, `startsWith`, and a global one-character `replace`.
 * Strings are sequences of characters; no encoding is modelled.
 */
module Strings {
  import opened Wrappers

  /** Index of the first occurrence of `c` in `s`, if there is one. */
  function IndexOf(s: string, c: char): (r: Option<nat>)
    ensures r.None? <==> c !in s
    ensures r.Some? ==> r.value < |s| && s[r.value] == c && c !in s[..r.value]
  {
    if |s| == 0 then None
    else if s[0] == c then Some(0)
    else
      match IndexOf(s[1..], c)
      case None => None
      case Some(i) =>
        assert s[1..][..i] == s[1..i + 1];
        Some(i + 1)
  }

  /** Index of the last occurrence of `c` in `s`, if there is one. */
  function LastIndexOf(s: string, c: char): (r: Option<nat>)
    ensures r.None? <==> c !in s
    ensures r.Some? ==> r.value < |s| && s[r.value] == c && c !in s[r.value + 1..]
  {
    if |s| == 0 then None
    else if s[|s| - 1] == c then Some(|s| - 1)
    else
      var r := LastIndexOf(s[..|s| - 1], c);
      assert r.Some? ==> s[r.value + 1..] == s[..|s| - 1][r.value + 1..] + [s[|s| - 1]];
      r
  }

  /** `pieces.join(c)`: the pieces with one `c` between neighbours. */
  function Join(pieces: seq<string>, c: char): string
  {
    if |pieces| == 0 then ""
    else if |pieces| == 1 then pieces[0]
    else pieces[0] + [c] + Join(pieces[1..], c)
  }

  /**
   * `s.split(c)`: the maximal runs of `s` between occurrences of `c`.
   * Like JavaScript it never returns an empty array ("".split(c) is [""]),
   * and adjacent separators give empty pieces.
   */
  function Split(s: string, c: char): (pieces: seq<string>)
    ensures |pieces| >= 1
    ensures forall i :: 0 <= i < |pieces| ==> c !in pieces[i]
    ensures Join(pieces, c) == s
    ensures |pieces| == 1 <==> c !in s
    decreases |s|
  {
    match IndexOf(s, c)
    case None => [s]
    case Some(i) =>
      var rest := Split(s[i + 1..], c);
      assert s == s[..i] + [c] + s[i + 1..];
      [s[..i]] + rest
  }

  /** Splitting a join gives the pieces back, provided no piece holds the separator. */
  lemma {:induction false} SplitJoin(pieces: seq<string>, c: char)
    requires |pieces| >= 1
    requires forall i :: 0 <= i < |pieces| ==> c !in pieces[i]
    ensures Split(Join(pieces, c), c) == pieces
    decreases |pieces|
  {
    if |pieces| == 1 {
      assert Join(pieces, c) == pieces[0];
      assert IndexOf(pieces[0], c).None? by { assert c !in pieces[0]; }
      assert pieces == [pieces[0]];
    } else {
      var rest := pieces[1..];
      var s := Join(pieces, c);
      assert s == pieces[0] + [c] + Join(rest, c);
      var k := |pieces[0]|;
      assert s[k] == c;
      assert s[..k] == pieces[0];
      assert IndexOf(s, c) == Some(k) by {
        assert c in s by { assert s[k] == c; }
        assert c !in s[..k];
      }
      assert s[k + 1..] == Join(rest, c);
      assert forall i :: 0 <= i < |rest| ==> c !in rest[i] by {
        forall i | 0 <= i < |rest|
          ensures c !in rest[i]
        {
          assert rest[i] == pieces[i + 1];
        }
      }
      SplitJoin(rest, c);
      assert Split(s, c) == [s[..k]] + Split(s[k + 1..], c);
      assert [pieces[0]] + rest == pieces;
    }
  }

  /** Joining a piece in front of at least one more. */
  lemma JoinCons(p: string, rest: seq<string>, c: char)
    requires |rest| >= 1
    ensures Join([p] + rest, c) == p + [c] + Join(rest, c)
  {
    assert ([p] + rest)[1..] == rest;
  }

  /** Joining three pieces. */
  lemma Join3(a: string, b: string, m: string, c: char)
    ensures Join([a, b, m], c) == a + [c] + b + [c] + m
  {
    assert [a, b, m][1..] == [b, m];
    assert [b, m][1..] == [m];
    assert Join([b, m], c) == b + [c] + m;
    assert Join([a, b, m], c) == a + [c] + (b + [c] + m);
  }

  /** The last element of a non-empty sequence: what `pop()` returns. */
  function Last<T>(xs: seq<T>): T
    requires |xs| >= 1
  {
    xs[|xs| - 1]
  }

  /** A join is the join of all but the last piece, a separator, and the last piece. */
  lemma {:induction false} JoinLast(pieces: seq<string>, c: char)
    requires |pieces| >= 2
    ensures Join(pieces, c) == Join(pieces[..|pieces| - 1], c) + [c] + Last(pieces)
    decreases |pieces|
  {
    if |pieces| > 2 {
      JoinLast(pieces[1..], c);
      assert pieces[1..][..|pieces| - 2] == pieces[..|pieces| - 1][1..];
    }
  }

  /** `s.startsWith(p)`. */
  predicate StartsWith(s: string, p: string)
  {
    |p| <= |s| && s[..|p|] == p
  }

  /** `s.replace(/from/g, to)` for single characters. */
  function ReplaceChar(s: string, from: char, to: char): (r: string)
    ensures |r| == |s|
    ensures forall i :: 0 <= i < |s| ==> r[i] == if s[i] == from then to else s[i]
    ensures from != to ==> from !in r
  {
    if |s| == 0 then ""
    else [if s[0] == from then to else s[0]] + ReplaceChar(s[1..], from, to)
  }

  /** Replacing characters distributes over concatenation. */
  lemma ReplaceConcat(a: string, b: string, from: char, to: char)
    ensures ReplaceChar(a + b, from, to) == ReplaceChar(a, from, to) + ReplaceChar(b, from, to)
  {
    var l := ReplaceChar(a + b, from, to);
    var r := ReplaceChar(a, from, to) + ReplaceChar(b, from, to);
    assert forall i | 0 <= i < |l| :: l[i] == r[i] by {
      forall i | 0 <= i < |l|
        ensures l[i] == r[i]
      {
        if i < |a| {
          assert (a + b)[i] == a[i];
        } else {
          assert (a + b)[i] == b[i - |a|];
        }
      }
    }
  }

  /** A string without the character is left as it is. */
  lemma ReplaceAbsent(s: string, from: char, to: char)
    requires from !in s
    ensures ReplaceChar(s, from, to) == s
  {
    var r := ReplaceChar(s, from, to);
    assert forall i | 0 <= i < |s| :: r[i] == s[i];
  }
}

=== FILE: users.dfy ===
/**
 * The `users` table: rows keyed by the auto-increment primary key `id`,
 * with a unique index on `email`. Each statement the routes issue
 * (INSERT, SELECT by email or id, UPDATE by id) is one function here.
 */
module Users {
  import opened Wrappers
  import opened Bcrypt

  /** One row of the table. `profileImage` is NULL (None) when unset. */
  datatype User = User(
    id: nat,
    name: string,
    email: string,
    dob: string,
    gender: string,
    password: Digest,
    profileImage: Option<string>)

  /** The table: rows by id, the unique email index, and the next auto-increment value. */
  datatype Store = Store(rows: map<nat, User>, byEmail: map<string, nat>, nextId: nat)

  /** The table's integrity: ids are keys, every id is below the counter, and the email index is exact. */
  predicate Valid(s: Store)
  {
    && (forall id | id in s.rows ::
          s.rows[id].id == id && id < s.nextId
          && s.rows[id].email in s.byEmail && s.byEmail[s.rows[id].email] == id)
    && (forall e | e in s.byEmail :: s.byEmail[e] in s.rows && s.rows[s.byEmail[e]].email == e)
  }

  /** An empty table; MySQL's AUTO_INCREMENT starts at 1. */
  const Empty: Store := Store(map[], map[], 1)

  lemma EmptyValid()
    ensures Valid(Empty)
  {
  }

  /** `SELECT * FROM users WHERE email = ?`, first row. */
  function ByEmail(s: Store, email: string): (r: Option<User>)
    requires Valid(s)
    ensures r.Some? <==> exists id :: id in s.rows && s.rows[id].email == email
    ensures r.Some? ==> r.value.id in s.rows && s.rows[r.value.id] == r.value && r.value.email == email
  {
    if email in s.byEmail then Some(s.rows[s.byEmail[email]]) else None
  }

  /** `SELECT ... FROM users WHERE id = ?`, first row. */
  function ById(s: Store, id: nat): (r: Option<User>)
    requires Valid(s)
    ensures r.Some? <==> id in s.rows
    ensures r.Some? ==> r.value.id == id && r.value == s.rows[id]
  {
    if id in s.rows then Some(s.rows[id]) else None
  }

  /** Rows are never removed, and a row's id, email and password digest never change. */
  predicate Keeps(s: Store, s': Store)
  {
    forall id | id in s.rows ::
      id in s'.rows && s'.rows[id].id == s.rows[id].id
      && s'.rows[id].email == s.rows[id].email && s'.rows[id].password == s.rows[id].password
  }

  lemma KeepsTransitive(s1: Store, s2: Store, s3: Store)
    requires Keeps(s1, s2) && Keeps(s2, s3)
    ensures Keeps(s1, s3)
  {
  }

  /** Why an INSERT was refused. */
  datatype InsertError = DuplicateEmail

  /**
   * `INSERT INTO users (name, email, dob, gender, password) VALUES (...)`:
   * the unique index refuses a known email; otherwise the row gets the next id.
   */
  function Insert(s: Store, name: string, email: string, dob: string, gender: string, password: Digest)
    : (r: Result<Store, InsertError>)
    requires Valid(s)
    ensures r.Err? <==> exists id :: id in s.rows && s.rows[id].email == email
    ensures r.Ok? ==> Valid(r.value) && Keeps(s, r.value)
    ensures r.Ok? ==> r.value.rows == s.rows[s.nextId := User(s.nextId, name, email, dob, gender, password, None)]
    ensures r.Ok? ==> r.value.nextId == s.nextId + 1 && |r.value.rows| == |s.rows| + 1
  {
    if email in s.byEmail then Err(DuplicateEmail)
    else
      var u := User(s.nextId, name, email, dob, gender, password, None);
      AddRowValid(s, u);
      Ok(Store(s.rows[s.nextId := u], s.byEmail[email := s.nextId], s.nextId + 1))
  }

  /** Adding a row under the counter's id, with an email not yet indexed, keeps the table consistent. */
  lemma AddRowValid(s: Store, u: User)
    requires Valid(s) && u.id == s.nextId && u.email !in s.byEmail
    ensures var s' := Store(s.rows[u.id := u], s.byEmail[u.email := u.id], s.nextId + 1);
            Valid(s') && Keeps(s, s') && |s'.rows| == |s.rows| + 1
  {
    var s' := Store(s.rows[u.id := u], s.byEmail[u.email := u.id], s.nextId + 1);
    assert u.id !in s.rows;
    forall id | id in s'.rows
      ensures s'.rows[id].id == id && id < s'.nextId
      ensures s'.rows[id].email in s'.byEmail && s'.byEmail[s'.rows[id].email] == id
    {
      if id != u.id {
        assert s'.rows[id] == s.rows[id];
        assert s.rows[id].email != u.email;
      }
    }
    forall e | e in s'.byEmail
      ensures s'.byEmail[e] in s'.rows && s'.rows[s'.byEmail[e]].email == e
    {
      if e != u.email {
        assert s.byEmail[e] != u.id;
      }
    }
  }

  /** The column assignments of the two UPDATE statements the routes issue. */
  datatype Patch =
    | ProfileFields(name: string, dob: string, gender: string, profileImage: Option<string>)
    | ImageOnly(profileImage: Option<string>)

  /** A row after a patch: the patched columns take the new values, every other column keeps its old one. */
  function Apply(u: User, p: Patch): (r: User)
    ensures r.id == u.id && r.email == u.email && r.password == u.password
    ensures r.profileImage == p.profileImage
    ensures p.ProfileFields? ==> r.name == p.name && r.dob == p.dob && r.gender == p.gender
    ensures p.ImageOnly? ==> r.name == u.name && r.dob == u.dob && r.gender == u.gender
  {
    match p
    case ProfileFields(name, dob, gender, img) => u.(name := name, dob := dob, gender := gender, profileImage := img)
    case ImageOnly(img) => u.(profileImage := img)
  }

  /**
   * `UPDATE users SET ... WHERE id = ?`. Matching no row is not an error:
   * the table is unchanged. No other row, and no email, changes.
   */
  function UpdateById(s: Store, id: nat, p: Patch): (r: Store)
    requires Valid(s)
    ensures Valid(r) && Keeps(s, r)
    ensures r.byEmail == s.byEmail && r.nextId == s.nextId && r.rows.Keys == s.rows.Keys
    ensures id in s.rows ==> r.rows == s.rows[id := Apply(s.rows[id], p)]
    ensures id !in s.rows ==> r == s
  {
    if id in s.rows then Store(s.rows[id := Apply(s.rows[id], p)], s.byEmail, s.nextId) else s
  }
}

=== FILE: wrappers.dfy ===
/** Optional values and success/failure results shared by every module. */
module Wrappers {

  /** A value that may be absent: JavaScript's `undefined`/`null`, or SQL NULL. */
  datatype Option<+T> = None | Some(value: T)

  /** Either a value or an error. */
  datatype Result<+T, +E> = Ok(value: T) | Err(error: E)
}
